=== FILE: README.md ===
# Object stores of the data catalog, in Dafny

This project models the object-store layer of the Trusted Analytics data
catalog. It is written as pure functions over immutable states and proves
properties of them.

- **The generated-keys map** (`MemoryUniqGeneratedKeysStore`). It hands out
  the decimal numerals "1", "2", ... of a counter as keys.
- **The in-memory object store** (`MemoryObjectStore`), built on that map.
- **The HDFS object store** (`HdfsObjectStore`). Each object lives in its own
  directory `<uuid>` below a chroot directory, and its content is the file
  `<uuid>/000000_1`.
- **The per-organization HDFS store** (`OrgSpecificHdfsObjectStore`). It
  parses a chroot URL, makes sure the directory exists, and delegates
  everything else.
- **The string logic of the store factory.**
  - `isKerberosEnabled`.
  - `getHdfsUri`, with its `%{organization}` template resolution through a
    commons-lang `StrSubstitutor`.
  - The order of the foreign steps in `getFileSystem`.
- **`IdWithTimestamp`**: a name with its spaces replaced, a '-', and a
  `yyMMdd-HHmmss` timestamp.

Modules:

| Module | What it holds |
|---|---|
| `Base` | Bytes, `Option`, `Result`, the error kinds the stores raise (`FileNotFound`, `NoSuchElement`, `IllegalArgument`, `IoFailure`) and an input stream that may break. |
| `Strings` | Generic string helpers. |
| `Decimal` | Decimal numerals and their parsing. |
| `Uuid` | UUID text. |
| `HadoopPath` | The location HDFS resolves a path string to: the scheme and a non-empty authority, the path component with runs of '/' collapsed and a trailing '/' dropped, "." and ".." read as names. Also the subtree relation that a recursive delete uses. |
| `HadoopUri` | `new Path(String)` as written: the single "//" replacement pass, the trailing-'/' trim, and `URI.normalize` with its resolution of "." and "..". |
| `FileSystem` | The HDFS file system as a map from paths to files and directories with ACL entries. It holds `mkdirs`, recursive `delete`, `create`, `open` and `modifyAclEntries`. |
| `KeyStore`, `MemoryObjectStore`, `HdfsObjectStore`, `OrgSpecificStore`, `PathTemplate`, `StoreFactory`, `IdWithTimestamp` | The classes above, one module each. |

Every operation returns its result together with the new state. A failing
operation of the in-memory store leaves the state as it was. A failing step
of the HDFS `save` keeps the effects of the steps before it, as HDFS does.

Some inputs come from outside and are taken as parameters:

- the random UUID of a new HDFS object;
- the clock reading of `IdWithTimestamp`;
- the org's UUID;
- the configuration values of the factory.

## Model

| member | source | states |
|---|---|---|
| `KeyStore.Empty` | src/main/java/org/trustedanalytics/clients/utils/MemoryUniqGeneratedKeysStore.java:29-30 | A new map is empty and satisfies the invariant: every key is a numeral the counter has already passed. |
| `KeyStore.Put` | src/main/java/org/trustedanalytics/clients/utils/MemoryUniqGeneratedKeysStore.java:39-43 | `put` increments the counter and returns the numeral of its new value. On a valid map that key was unused. Afterwards `get` gives the value and `containsKey` holds, every other key reads as before, and the invariant is kept. |
| `KeyStore.Remove` | src/main/java/org/trustedanalytics/clients/utils/MemoryUniqGeneratedKeysStore.java:45-47 | `remove` returns the previous value exactly when the key was present. Afterwards the key is gone, every other key reads as before, the counter is unchanged, and the invariant is kept. |
| `KeyStore.Has` | src/main/java/org/trustedanalytics/clients/utils/MemoryUniqGeneratedKeysStore.java:49-51 | `has` holds exactly when some key maps to the value. |
| `KeyStore.RunNumbersPuts` | src/main/java/org/trustedanalytics/clients/utils/MemoryUniqGeneratedKeysStore.java:29-47 | Over any sequence of puts and removes, the i-th put returns the numeral of the starting counter plus i + 1, and the invariant holds throughout. |
| `KeyStore.RunIssuesFreshKeys` | src/main/java/org/trustedanalytics/clients/utils/MemoryUniqGeneratedKeysStore.java:36-43 | The keys handed out by the puts of any run are pairwise distinct, even with removals in between, and none was in use before the run. |
| `KeyStore.PutsCountFromOne` | src/main/java/org/trustedanalytics/clients/utils/MemoryUniqGeneratedKeysStore.java:29-43 | From a new map the n-th put returns "n". |
| `KeyStore.RemovedKeyNeverReissued` | src/main/java/org/trustedanalytics/clients/utils/MemoryUniqGeneratedKeysStore.java:39-47 | A removed key is never handed out again by later puts. |
| `MemoryObjectStore.New` | src/main/java/org/trustedanalytics/store/MemoryObjectStore.java:33 | A new store satisfies the key-map invariant. |
| `MemoryObjectStore.Save` | src/main/java/org/trustedanalytics/store/MemoryObjectStore.java:40-43 | `save(bytes)` returns an id that was not in use. `getContent` of that id gives the bytes, and every other id reads as before. |
| `MemoryObjectStore.SaveStream` | src/main/java/org/trustedanalytics/store/MemoryObjectStore.java:35-38 | `save(stream)` fails with an I/O error and stores nothing when the stream breaks. Otherwise it saves exactly the bytes read. |
| `MemoryObjectStore.GetContent` | src/main/java/org/trustedanalytics/store/MemoryObjectStore.java:45-51 | `getContent` succeeds exactly for stored ids. An unknown id raises FileNotFound. |
| `MemoryObjectStore.Remove` | src/main/java/org/trustedanalytics/store/MemoryObjectStore.java:53-59 | `remove` raises NoSuchElement exactly for unknown ids and then changes nothing. Otherwise the id's content becomes FileNotFound and every other id reads as before. |
| `MemoryObjectStore.TwoSavesDistinct` | src/test/java/org/trustedanalytics/store/MemoryObjectStoreTest.java:45-59 | Two saves in a row return different ids, and both payloads read back byte for byte. |
| `MemoryObjectStore.RemoveAfterSave` | src/test/java/org/trustedanalytics/store/MemoryObjectStoreTest.java:71-93 | After removing a saved id its content is not found, while an object saved later is unaffected. |
| `MemoryObjectStore.BasicScenario` | src/test/java/org/trustedanalytics/store/MemoryObjectStoreTest.java:45-59 | In a new store, [1,2,3,4] and [1,2] get the ids "1" and "2" and read back exactly. |
| `HadoopPath.ChildParse` | src/main/java/org/trustedanalytics/store/hdfs/HdfsObjectStore.java:123-125 | For a chroot whose path is neither "" nor "/", parsing the chroot text + "/" + id keeps the chroot's scheme and authority. The path is the chroot's path extended by the normalised id. |
| `HadoopPath.ChildSubtreeInsideChroot` | src/main/java/org/trustedanalytics/store/hdfs/HdfsObjectStore.java:87-98 | Everything below the location of a child that is not the chroot itself lies strictly inside the chroot. This is about the resolved location, in which "." and ".." are names. |
| `HadoopPath.Prefix` | src/main/java/org/trustedanalytics/store/hdfs/OrgSpecificHdfsObjectStore.java:33 | The scheme and authority kept by the parsed path lie between the scheme and the path component. They are everything before the path component exactly when the authority is not empty. |
| `HadoopPath.EmptyAuthorityDropped` | src/main/java/org/trustedanalytics/store/hdfs/OrgSpecificHdfsObjectStore.java:33 | A chroot URL "scheme:///name" has no authority: it names "/name" under "scheme:", and its text is "scheme:/name". |
| `HadoopUri.ReplaceDoubleSlash` | src/main/java/org/trustedanalytics/store/hdfs/HdfsObjectStore.java:123-130 | The single replace pass keeps the first character and only characters of its input. It shortens the text exactly when the text holds "//", and leaves it as it is otherwise. |
| `HadoopUri.ReplaceKeepsLocation` | src/main/java/org/trustedanalytics/store/hdfs/HdfsObjectStore.java:123-130 | The single replace pass does not change the location: collapsing slash runs afterwards gives the same result as collapsing them directly. |
| `HadoopUri.RemoveDots` | src/main/java/org/trustedanalytics/store/hdfs/HdfsObjectStore.java:123-130 | Resolving dot segments leaves no "." and leaves ".." only ahead of every name. It never adds segments. |
| `HadoopUri.UriNormalizeNoDots` | src/main/java/org/trustedanalytics/store/hdfs/HdfsObjectStore.java:123-130 | On a path without '.', `URI.normalize` only collapses runs of '/'. |
| `HadoopUri.NormalizationsAgree` | src/main/java/org/trustedanalytics/store/hdfs/HdfsObjectStore.java:123-130 | On a path without '.', the replace pass, the trim and `URI.normalize` together lead to the same location as collapsing and trimming. |
| `HadoopUri.NewPathAgrees` | src/main/java/org/trustedanalytics/store/hdfs/HdfsObjectStore.java:123-130 | For a path component without '.', the Path `new Path(s)` builds resolves to the location `MakePath(s)` gives. |
| `HadoopUri.DotDotNormalize` | src/main/java/org/trustedanalytics/store/hdfs/HdfsObjectStore.java:127-130 | `URI.normalize` of "/u/v/.." is "/u/": the ".." takes back "v" but keeps the '/' after "u". |
| `HdfsObjectStore.AsWrittenResolvesToChild` | src/main/java/org/trustedanalytics/store/hdfs/HdfsObjectStore.java:123-130 | On a valid store, for a chroot and an id without '.', the Path `idToPath` builds as written resolves to the child location the model uses. |
| `HdfsObjectStore.RemoveAsWritten` | src/main/java/org/trustedanalytics/store/hdfs/HdfsObjectStore.java:87-98 | `remove` as written: the guard compares the Path built as written with the chroot. It raises IllegalArgument exactly when they are equal. Otherwise it succeeds exactly when the location that Path resolves to exists, and raises NoSuchElement when it does not. On success it deletes exactly the subtree of that location. A failure changes nothing. |
| `HdfsObjectStore.RemoveAsWrittenAgrees` | src/main/java/org/trustedanalytics/store/hdfs/HdfsObjectStore.java:87-98 | For a chroot and an id without '.', whose directory part is not a run of two or more '/', `remove` as written and the corrected `remove` give the same outcome and the same file system. |
| `HdfsObjectStore.RemoveAsWrittenDeletesChroot` | src/main/java/org/trustedanalytics/store/hdfs/HdfsObjectStore.java:87-98 | For every chroot without '.', the id "//" builds "<chroot>/", which passes the guard. `remove` as written then deletes the chroot and everything in it. The corrected `remove` refuses that id. |
| `HdfsObjectStore.RemoveAsWrittenDeletesParent` | src/main/java/org/trustedanalytics/store/hdfs/HdfsObjectStore.java:87-98 | Under a chroot "/u/v", the id ".." builds "/u/". `remove` as written deletes the parent "/u" with everything in it. The corrected `remove` keeps the parent and the chroot. |
| `HadoopPath.ChildOfRoot` | src/main/java/org/trustedanalytics/store/hdfs/HdfsObjectStore.java:152-154 | The intended child of a root directory is the name directly below the root, inside its subtree. |
| `FileSystem.Mkdirs` | src/main/java/org/trustedanalytics/store/hdfs/OrgSpecificHdfsObjectStore.java:66-68 | `mkdirs` succeeds exactly when no file sits on the path or above it, and otherwise raises an I/O error. It creates the path and its missing ancestors as empty directories and keeps every existing node. |
| `FileSystem.Delete` | src/main/java/org/trustedanalytics/store/hdfs/HdfsObjectStore.java:93-94 | A recursive delete removes exactly the subtree of the path and keeps every other node. |
| `FileSystem.Create` | src/main/java/org/trustedanalytics/store/hdfs/HdfsObjectStore.java:106-113 | `create` with overwrite fails exactly on a directory or under a file. Otherwise the file holds the content and missing parents are created. |
| `FileSystem.ModifyAcl` | src/main/java/org/trustedanalytics/store/hdfs/HdfsObjectStore.java:143-146 | `modifyAclEntries` fails with FileNotFound on a missing path. Otherwise the new entries are added, replacing entries with the same key, and nothing else changes. |
| `FileSystem.Open` | src/main/java/org/trustedanalytics/store/hdfs/HdfsObjectStore.java:115-117 | `open` gives a file's content and raises FileNotFound for anything else. |
| `FileSystem.MkdirsIdempotent` | src/main/java/org/trustedanalytics/store/hdfs/OrgSpecificHdfsObjectStore.java:66-68 | A second `mkdirs` of the same path changes nothing. |
| `FileSystem.MkdirsExisting` | src/main/java/org/trustedanalytics/store/hdfs/OrgSpecificHdfsObjectStore.java:66-68 | `mkdirs` of an existing directory chain changes nothing. |
| `FileSystem.CreateInExistingDir` | src/main/java/org/trustedanalytics/store/hdfs/HdfsObjectStore.java:106-113 | Creating a new file whose parent directories exist adds just that file. |
| `HdfsObjectStore.NewStore` | src/main/java/org/trustedanalytics/store/hdfs/HdfsObjectStore.java:61-65 | The two-argument constructor keeps the chroot and has no technical users. |
| `HdfsObjectStore.IdToPathParses` | src/main/java/org/trustedanalytics/store/hdfs/HdfsObjectStore.java:123-125 | The location of `new Path(chrootPath + "/" + id)` is the chroot's child `id`, for every chroot the stores are valid on. |
| `HdfsObjectStore.RootChrootIdEscapes` | src/main/java/org/trustedanalytics/store/hdfs/HdfsObjectStore.java:123-125 | With the chroot "/", `idToPath` as written reads the id as an authority, and the path it builds lies outside the chroot. The intended child lies inside it. |
| `HdfsObjectStore.GetContent` | src/main/java/org/trustedanalytics/store/hdfs/HdfsObjectStore.java:115-117 | `getContent` succeeds exactly when a file is at the id's path, and then gives its bytes. Otherwise it raises FileNotFound. |
| `HdfsObjectStore.GetId` | src/main/java/org/trustedanalytics/store/hdfs/HdfsObjectStore.java:119-121 | `getId` is non-empty text that parses back to the chroot. |
| `HdfsObjectStore.Remove` | src/main/java/org/trustedanalytics/store/hdfs/HdfsObjectStore.java:87-98 | `remove`, with the guard comparing resolved locations (the corrected member of the second finding). It succeeds exactly when the directory's location is not the chroot and exists. It then deletes exactly that subtree and keeps every other node. It raises IllegalArgument when the location is the chroot and NoSuchElement when it is missing. Any failure leaves the file system unchanged. |
| `HdfsObjectStore.ObjectIdShape` | src/main/java/org/trustedanalytics/store/hdfs/HdfsObjectStore.java:47 | An object id is `<uuid>/000000_1`. It ends in "000000_1", and dropping "/000000_1" gives the directory name back. |
| `HdfsObjectStore.ObjectPaths` | src/main/java/org/trustedanalytics/store/hdfs/HdfsObjectStore.java:123-130 | The object directory is the chroot path + "/<uuid>" and the content file is that + "/000000_1". `idToDirectoryPath(id)` is the directory that `getPath(chroot, uuid)` names. |
| `HdfsObjectStore.GrantedAclEntries` | src/main/java/org/trustedanalytics/store/hdfs/HdfsObjectStore.java:139-147 | The granted ACL gives every technical user READ_EXECUTE, as both an access and a default entry, keeps the other entries, and adds nothing else. With no users it changes nothing. |
| `HdfsObjectStore.CreateNewObjectDirEffect` | src/main/java/org/trustedanalytics/store/hdfs/HdfsObjectStore.java:132-137 | `createNewObjectDir` removes whatever sat at the content file's path and keeps every node outside it. It then creates the object directory and the directories above it, and fails exactly when a file blocks one of them. |
| `HdfsObjectStore.SaveObjectOutcome` | src/main/java/org/trustedanalytics/store/hdfs/HdfsObjectStore.java:76-85 | `saveObject` succeeds exactly when the directory can be made and the stream reads to its end. The file then holds the bytes read, and the directory carries the granted ACL. |
| `HdfsObjectStore.SaveSucceedsIff` | src/main/java/org/trustedanalytics/store/hdfs/HdfsObjectStore.java:67-85 | `save` returns `<uuid>/000000_1` exactly when no file blocks the object directory and the stream does not break. |
| `HdfsObjectStore.SaveThenGetContent` | src/main/java/org/trustedanalytics/store/hdfs/HdfsObjectStore.java:76-85 | Once the object directory could be made, `getContent` of the returned id yields exactly the bytes the stream delivered. |
| `HdfsObjectStore.SaveGrantsAcls` | src/main/java/org/trustedanalytics/store/hdfs/HdfsObjectStore.java:139-147 | The object directory ends up with the technical users' READ_EXECUTE entries on top of those it had. |
| `HdfsObjectStore.SaveFrame` | src/main/java/org/trustedanalytics/store/hdfs/HdfsObjectStore.java:132-137 | `save` changes nothing outside the new object. Paths not under the object file keep their nodes, apart from the object directory. New paths are the file, the directory, or missing parents without ACL entries. |
| `HdfsObjectStore.RemoveRefusedIff` | src/main/java/org/trustedanalytics/store/hdfs/HdfsObjectStore.java:87-92 | The corrected `remove` raises IllegalArgument exactly when the id, with "/000000_1" dropped, is empty or nothing but '/', because exactly then its location is the chroot. |
| `HdfsObjectStore.RemoveRootIdRefused` | src/test/java/org/trustedanalytics/store/hdfs/HdfsObjectStoreTest.java:101-106 | The id "/000000_1" is refused and the file system is untouched, by the corrected `remove` and, for a chroot without '.', by `remove` as written. |
| `HdfsObjectStore.RemoveWithOrWithoutFileName` | src/test/java/org/trustedanalytics/store/hdfs/HdfsObjectStoreTest.java:93-99 | An id with and without the trailing "/000000_1" removes the same directory, both in the corrected `remove` and in `remove` as written. |
| `HdfsObjectStore.RemoveStaysInChroot` | src/main/java/org/trustedanalytics/store/hdfs/HdfsObjectStore.java:87-98 | The corrected `remove` never deletes the chroot or anything outside it, whatever the id. |
| `HdfsObjectStore.SaveThenRemove` | src/main/java/org/trustedanalytics/store/hdfs/HdfsObjectStore.java:87-98 | A saved object can be removed by its id. Afterwards its content is not found, and only the object directory's subtree has changed. For a chroot without '.', `remove` as written gives the same outcome. |
| `OrgSpecificStore.Open` | src/main/java/org/trustedanalytics/store/hdfs/OrgSpecificHdfsObjectStore.java:30-36 | An empty URL is refused with IllegalArgument. Otherwise construction succeeds exactly when `mkdirs` of the parsed chroot can, and fails with an I/O error when it cannot. It wraps a store on that chroot without technical users, and a failure leaves the file system unchanged. |
| `OrgSpecificStore.OpenAsWritten` | src/main/java/org/trustedanalytics/store/hdfs/OrgSpecificHdfsObjectStore.java:30-36 | The constructor as written: the chroot is the Path built by `new Path(url)`. An empty URL is refused with IllegalArgument. Otherwise it succeeds exactly when `mkdirs` of the location that Path resolves to can, and fails with an I/O error when it cannot. A failure leaves the file system unchanged. |
| `OrgSpecificStore.OpenAsWrittenAgrees` | src/main/java/org/trustedanalytics/store/hdfs/OrgSpecificHdfsObjectStore.java:30-36 | For a URL whose path component has no '.', the constructor as written succeeds exactly when `Open` does and leaves the same file system. |
| `OrgSpecificStore.TrailingSlashesChrootDeleted` | src/main/java/org/trustedanalytics/store/hdfs/OrgSpecificHdfsObjectStore.java:30-36 | For every chroot "<c>" without '.', the URL "<c>///" gives the chroot Path "<c>/" as written, so `getId` ends in '/'. The id "/000000_1" then builds "<c>", which passes the guard as written, and `remove` deletes "<c>" with everything in it. On the chroot `Open` reads from the same URL, that id is refused. |
| `OrgSpecificStore.OpenPreparesChroot` | src/main/java/org/trustedanalytics/store/hdfs/OrgSpecificHdfsObjectStore.java:30-36 | After construction the chroot and every directory above it exist, every existing node is kept, and no technical user is granted anything. |
| `OrgSpecificStore.OpenExistingChroot` | src/main/java/org/trustedanalytics/store/hdfs/OrgSpecificHdfsObjectStore.java:66-68 | An existing chroot is left as it is. |
| `OrgSpecificStore.GetIdNamesChroot` | src/main/java/org/trustedanalytics/store/hdfs/OrgSpecificHdfsObjectStore.java:53-56 | `getId` is non-empty and parses back to the same chroot as the URL. It equals the URL when the URL has no empty authority and its path component has no "//" and no trailing '/'. |
| `OrgSpecificStore.GetIdOfFolderName` | src/main/java/org/trustedanalytics/store/hdfs/OrgSpecificHdfsObjectStore.java:53-56 | A plain folder name is kept verbatim as the store id. |
| `OrgSpecificStore.GetIdAsWrittenOfFolderName` | src/main/java/org/trustedanalytics/store/hdfs/OrgSpecificHdfsObjectStore.java:53-56 | With the constructor as written, a folder name without '.' is kept verbatim as the store id. |
| `OrgSpecificStore.RemoveKeepsChroot` | src/main/java/org/trustedanalytics/store/hdfs/OrgSpecificHdfsObjectStore.java:48-51 | The corrected `remove` through the org store never deletes its chroot. |
| `OrgSpecificStore.SaveAddsNoAclEntries` | src/main/java/org/trustedanalytics/store/hdfs/OrgSpecificHdfsObjectStore.java:35 | Without technical users, `save` adds no ACL entries to the object directory. |
| `OrgSpecificStore.OpenedStoreReady` | src/main/java/org/trustedanalytics/store/hdfs/OrgSpecificHdfsObjectStore.java:30-36 | After opening, the store is valid, and `mkdirs` has put no file on an object directory that was not blocked before. |
| `OrgSpecificStore.OpenSaveGetRemove` | src/main/java/org/trustedanalytics/store/hdfs/OrgSpecificHdfsObjectStore.java:38-51 | End to end: an opened store saves an object, reads exactly its bytes back by the returned id, and removes it. For a chroot without '.', `remove` as written removes it too. |
| `PathTemplate.ResolvePlaceholder` | src/main/java/org/trustedanalytics/store/hdfs/OrgSpecificHdfsObjectStoreFactory.java:134-137 | A "%{name}" placeholder becomes the org text when the name is `organization`, and is kept as written otherwise. Resolution goes on after it. |
| `PathTemplate.ResolvePlainText` | src/main/java/org/trustedanalytics/store/hdfs/OrgSpecificHdfsObjectStoreFactory.java:134-137 | Literal text without a marker passes through unchanged, whatever follows. |
| `PathTemplate.ResolveRender` | src/main/java/org/trustedanalytics/store/hdfs/OrgSpecificHdfsObjectStoreFactory.java:129-137 | Resolving a well-formed template gives its instantiation: every `organization` placeholder is replaced by the org, and everything else is kept. |
| `PathTemplate.InstantiateWellFormed` | src/main/java/org/trustedanalytics/store/hdfs/OrgSpecificHdfsObjectStoreFactory.java:129-137 | Instantiation keeps a template well formed and leaves no `organization` placeholder behind. |
| `PathTemplate.ResolveIdempotent` | src/main/java/org/trustedanalytics/store/hdfs/OrgSpecificHdfsObjectStoreFactory.java:134-137 | On well-formed templates, resolving twice gives the same result as resolving once. |
| `PathTemplate.ResolveWithoutMarker` | src/main/java/org/trustedanalytics/store/hdfs/OrgSpecificHdfsObjectStoreFactory.java:134-137 | Text with no "%{" comes back unchanged. |
| `PathTemplate.ResolveEscaped` | src/main/java/org/trustedanalytics/store/hdfs/OrgSpecificHdfsObjectStoreFactory.java:134-137 | The escape "$%{" loses its '$' and is not read as a placeholder. |
| `PathTemplate.EscapedPlaceholderResolvesLater` | src/main/java/org/trustedanalytics/store/hdfs/OrgSpecificHdfsObjectStoreFactory.java:134-137 | Outside well-formed templates resolution is not idempotent. An escaped `%{organization}` comes out unescaped, and a second pass replaces it. |
| `StoreFactory.HdfsUri` | src/main/java/org/trustedanalytics/store/hdfs/OrgSpecificHdfsObjectStoreFactory.java:124-127 | `getHdfsUri` fails with NoSuchElement exactly when the HDFS URI property is missing. |
| `StoreFactory.KerberosDependsOnOneKey` | src/main/java/org/trustedanalytics/store/hdfs/OrgSpecificHdfsObjectStoreFactory.java:118-122 | Kerberos is enabled exactly when "hadoop.security.authentication" is "kerberos". A missing property, any other value, or any other key leaves it disabled. |
| `StoreFactory.FileSystemSteps` | src/main/java/org/trustedanalytics/store/hdfs/OrgSpecificHdfsObjectStoreFactory.java:88-116 | `getFileSystem` gets as far as the file system exactly when the URI property is present and, with Kerberos enabled, the KDC and realm are too. A missing value raises NoSuchElement, and the URI used is the tenant URI. |
| `StoreFactory.LoginPrecedesFileSystem` | src/main/java/org/trustedanalytics/store/hdfs/OrgSpecificHdfsObjectStoreFactory.java:96-105 | A login happens exactly when Kerberos is enabled and configured, and comes first. The file system is obtained only on success, once, last, for the tenant URI. |
| `StoreFactory.HdfsUriWithoutTemplate` | src/test/java/org/trustedanalytics/store/hdfs/OrgSpecificHdfsObjectStoreFactoryTest.java:52-61 | A URI without a template is returned as configured. |
| `StoreFactory.HdfsUriOfTemplate` | src/main/java/org/trustedanalytics/store/hdfs/OrgSpecificHdfsObjectStoreFactory.java:124-137 | A configured template resolves to its instantiation, and resolving the tenant URI again changes nothing. |
| `StoreFactory.OrgSegmentResolves` | src/test/java/org/trustedanalytics/store/hdfs/OrgSpecificHdfsObjectStoreFactoryTest.java:41-50 | `<host>/org/%{organization}/<instance>` resolves to `<host>/org/<org>/<instance>`. |
| `IdWithTimestamp.NormalizeName` | src/main/java/org/trustedanalytics/id/IdWithTimestamp.java:33 | The normalised name has the same length, with every ' ' replaced by '_' and every other character kept. |
| `IdWithTimestamp.NormalizeNameProperties` | src/main/java/org/trustedanalytics/id/IdWithTimestamp.java:33 | The normalised name has no spaces, and normalising again changes nothing. |
| `IdWithTimestamp.TimestampShape` | src/main/java/org/trustedanalytics/id/IdWithTimestamp.java:37-40 | A timestamp is 13 characters: six digits, '-', six digits. |
| `IdWithTimestamp.ParseOfTimestamp` | src/main/java/org/trustedanalytics/id/IdWithTimestamp.java:37-40 | Reading a timestamp's fields back gives the clock reading, with the year taken modulo 100. |
| `IdWithTimestamp.TimestampOfParse` | src/main/java/org/trustedanalytics/id/IdWithTimestamp.java:37-40 | Every well-shaped timestamp with valid fields is the format of the reading it parses to. |
| `IdWithTimestamp.TimestampInjective` | src/main/java/org/trustedanalytics/id/IdWithTimestamp.java:37-40 | Two readings give the same timestamp exactly when they agree on every field but the century. |
| `IdWithTimestamp.SplitId` | src/main/java/org/trustedanalytics/id/IdWithTimestamp.java:32-35 | An id splits into a name part and a 13-character timestamp part that rejoin with '-' exactly when the id has '-' at that place. |
| `IdWithTimestamp.GenerateSplits` | src/main/java/org/trustedanalytics/id/IdWithTimestamp.java:28-35 | A generated id is 14 characters longer than the name, and splits back into the normalised name and the timestamp. |
| `IdWithTimestamp.GenerateCollides` | src/main/java/org/trustedanalytics/id/IdWithTimestamp.java:28-35 | At one clock reading, two names give the same id exactly when they agree everywhere up to exchanging ' ' and '_'. |
| `IdWithTimestamp.GenerateDistinctTimes` | src/main/java/org/trustedanalytics/id/IdWithTimestamp.java:28-40 | Two ids are equal exactly when the normalised names and the timestamps are equal. |

## Left out

- S3 stores, `InFolder` stores and the Spring configuration that chooses a backend are not part of this model.
- The factory's `create(org, token)` and the JWT, OAuth and Kerberos login calls are foreign code. `FileSystem.get` is too. They appear only as the steps of `StoreFactory.FileSystemSteps`.
- `getFileSystem` catches its exceptions, prints them and returns null. The model ends at the first failure and leaves the printing and the null result out.
- A malformed URI (`URISyntaxException`) is not modelled: the URI text is not validated.
- Hadoop configuration variable expansion is not modelled: the configuration is a map from keys to their final values.
- Concurrency is not modelled: the atomic counter and the concurrent map are modelled as a sequential state.
- The key counter is a `nat`. The wrap-around of Java's 32-bit `int` after 2^31 - 1 puts is not modelled.
- The clock, its time zone and `UUID.randomUUID` are parameters. The clock reading is taken to be already in calendar fields.
- Windows drive letters and URI percent-encoding in Hadoop `Path` are not modelled.
- HadoopPath.MakePath: reads "." and ".." as plain names. The store and its lemmas use it as the location of a path; the exact dot resolution of `new Path` is `HadoopUri.NewPath`, related to `MakePath` only for paths without '.'.
- HadoopUri.NewPath: `maybeAddLeadingDot`, and the URI constructor re-reading a component that starts with "//" as an authority, are not modelled. The root-chroot finding models that re-reading separately.
- HadoopPath.ChildSubtreeInsideChroot: holds of the resolved location, where ".." is a name. In `new Path` the child ".." resolves to the chroot's parent (`HdfsObjectStore.RemoveAsWrittenDeletesParent`).
- HdfsObjectStore.RemoveRefusedIff: holds of the corrected `remove`, which compares resolved locations. The guard as written lets "//", "." and "a/.." through (second finding).
- HdfsObjectStore.RemoveStaysInChroot: holds of the corrected `remove`. As written, "//" deletes the chroot and ".." its parent (second finding).
- OrgSpecificStore.RemoveKeepsChroot: holds of the corrected `remove`, for the same reason as `RemoveStaysInChroot`.
- HdfsObjectStore.Remove: an id with a "." or ".." segment is a plain name in the resolved location. HDFS itself refuses such names, and a real `remove` resolves ".." upwards (`RemoveAsWrittenDeletesParent`).
- OrgSpecificStore.GetIdNamesChroot: a URL with "." or ".." segments gets an id with those segments resolved by `URI.normalize`; the lemma keeps them as names.
- OrgSpecificStore.Open: takes as the chroot the location `new Path(url)` resolves to. The source keeps the Path as built. For a URL whose path ends in three or more '/', that Path keeps one trailing '/': "/a/c///" gives "/a/c/". Then `getId` ends in '/', and `remove` as written deletes the chroot for the id "/000000_1" (`OrgSpecificStore.TrailingSlashesChrootDeleted`). `OrgSpecificStore.OpenAsWritten` models the source and agrees with `Open` on success and on the file system for URLs without '.'.
- OrgSpecificStore.GetIdOfFolderName: holds of `Open`, where "." and ".." are names. As written, `new Path(".")` gives the empty id. `OrgSpecificStore.GetIdAsWrittenOfFolderName` covers the names without '.'.
- OrgSpecificStore.OpenSaveGetRemove: stated of `Open`. Its clause about `remove` as written is proved only for a chroot whose path has no '.', so ordinary dotted names such as "/data/v1.2" are not covered. The source behaves the same there, but the agreement between `new Path` and the resolved location is proved only for text without '.'.
- HdfsObjectStore.RemoveRootIdRefused: its clause about `remove` as written is proved only for a chroot whose path has no '.'. A chroot built by `new Path` has no "." or ".." segment, so the source refuses the id for dotted names such as "/user/john.doe" too; the model leaves that case unproved.
- HdfsObjectStore.SaveThenRemove: its clause about `remove` as written is proved only for a chroot whose path has no '.'. Dotted names such as "/data/v1.2" behave the same in the source but are left unproved.
- MemoryObjectStore.Save: the model stores an immutable copy of the bytes. The source keeps the caller's `byte[]` by reference, and `getContent` wraps that same array. A caller that changes the array after saving therefore changes what `getContent` returns. The round trip holds only while the caller leaves the array unchanged.
- HdfsObjectStore.GetContent: an id is read below the chroot with "." and ".." taken as names. In the source, `new Path` resolves ".." upwards, so under the chroot "/a/c" the id "../x/000000_1" opens "/a/x/000000_1", outside the chroot.
- FileSystem.ModifyAcl: always succeeds on an existing path, so the model assumes HDFS ACLs are enabled. With `dfs.namenode.acls.enabled` set to false the NameNode refuses `modifyAclEntries`, even for an empty list of entries, and every HDFS `save` fails.
- KeyStore.Put: null arguments are not modelled, because the model's types have no null. The source's concurrent map throws NullPointerException for a null value in `put`, after the counter has already been incremented, so the next key skips a number. `has`, `get` and `remove` throw for null too, and so do `MemoryObjectStore` `save(null)` and `getContent(null)`.
- HDFS default-ACL inheritance, permissions and umask are not modelled.
- The `getAclStatus` read and its logging in `setAClsForTechnicalUsers` are left out: they change no state.
- The 4096-byte buffered copy is modelled as writing the bytes the stream yields.
- `HdfsObjectStore.Valid` covers only chroots whose path is neither "" nor "/". The root chroot is the subject of the first finding below.
- `ObjectId` and `FsPermissionHelper` are not part of this model. Their behaviour is taken to be:
  - `ObjectId.toString()` is the directory name followed by "/000000_1";
  - the helper gives one USER entry per technical user with the given action, in access scope and in default scope.
- Opening a directory through `FileSystem.Open` raises FileNotFound, as HDFS does.
- `KeyStore.Has`: the source's `has(String)` takes a `String` whatever `V` is. The model takes a `V`, so a lookup of a string in a map of non-strings is not modelled.
- The in-memory store's `getId` is the constant `MemoryObjectStore.StoreId`, "in_memory".
- `OrgSpecificStore.Save`, `OrgSpecificStore.GetContent`, `OrgSpecificStore.Remove` and `OrgSpecificStore.GetId` carry no contracts of their own. They are the wrapped store's operations, and the lemmas about them use the wrapped store's contracts.
- Some tests do not match the source: tests calling a `getUniqueId`, and a root-provisioning step with mode 770. They are not modelled.

## Findings

| source | as written | input that shows it | evidently intended | confidence | as-written member | corrected member |
|---|---|---|---|---|---|---|
| src/main/java/org/trustedanalytics/store/hdfs/HdfsObjectStore.java:123-125 | `idToPath` builds `new Path(chrootPath + "/" + id)`. When the chroot is a root directory "/" with no authority (such as `new Path("/")` or "file:/"), the text ends in "//" + id, and Hadoop parses "//name" as the authority "name" with an empty path. | The chroot `new Path("/")` and the id "abc". The path built has authority "abc" and lies outside the chroot. | The child "/abc" of the root directory, inside the chroot, as for every other chroot. | medium; not executed | `HdfsObjectStore.RootChrootIdEscapes` | `HadoopPath.ChildOfRoot` |
| src/main/java/org/trustedanalytics/store/hdfs/HdfsObjectStore.java:87-98 | `remove` guards with `path.equals(chrootPath)`, where `path` is the Path built from the id as written. Ids such as "//" or ".." build a Path that is not equal to the chroot but resolves to the chroot or above it, and `delete(path, true)` then removes it. | The chroot "/a/c" and the id "//": the Path "/a/c/" passes the guard and deleting it deletes the chroot. The id ".." builds "/a/" and deletes the parent "/a". The org URL "/a/c///" gives the chroot Path "/a/c/", and the id "/000000_1" then builds "/a/c" and deletes the chroot. | The chroot and everything above it are safe from `remove`, as the test at src/test/java/org/trustedanalytics/store/hdfs/HdfsObjectStoreTest.java:101-106 expects for "/000000_1". | medium; not executed | `HdfsObjectStore.RemoveAsWrittenDeletesChroot`, `HdfsObjectStore.RemoveAsWrittenDeletesParent`, `OrgSpecificStore.TrailingSlashesChrootDeleted` | `HdfsObjectStore.RemoveStaysInChroot` |

=== FILE: base.dfy ===
/** Values shared by every object store: bytes, optional values, the
    exceptions the stores raise, and input streams. */
module Base {

  newtype byte = x: int | 0 <= x < 256

  type Bytes = seq<byte>

  /** A Java reference that may be null. */
  datatype Option<+T> = None | Some(value: T)

  /** The exceptions the stores raise, named after their Java classes. */
  datatype Error =
    | FileNotFound      // java.io.FileNotFoundException
    | NoSuchElement     // java.util.NoSuchElementException
    | IllegalArgument   // java.lang.IllegalArgumentException
    | IoFailure         // any other java.io.IOException

  /** Normal completion with a value, or a thrown exception. */
  datatype Result<+T> = Success(value: T) | Failure(error: Error)

  /** An InputStream: the bytes it yields, then either end of stream or,
      when `broken`, an IOException instead of end of stream. */
  datatype Stream = Stream(bytes: Bytes, broken: bool)
}

=== FILE: decimal.dfy ===
/** Decimal rendering of natural numbers, as Java's `"" + n` does it for a
    non-negative `int`, and its inverse. */
module Decimal {

  predicate IsDigit(c: char) {
    '0' <= c <= '9'
  }

  predicate AllDigits(s: string) {
    forall i :: 0 <= i < |s| ==> IsDigit(s[i])
  }

  function DigitValue(c: char): (d: nat)
    requires IsDigit(c)
    ensures d < 10
  {
    c as int - '0' as int
  }

  function DigitChar(d: nat): (c: char)
    requires d < 10
    ensures IsDigit(c) && DigitValue(c) == d
  {
    ('0' as int + d) as char
  }

  /** The shortest decimal numeral of `n`. */
  function ToDecimal(n: nat): (s: string)
    ensures |s| >= 1 && AllDigits(s)
    decreases n
  {
    if n < 10 then [DigitChar(n)] else ToDecimal(n / 10) + [DigitChar(n % 10)]
  }

  /** The value of a numeral (leading zeros allowed). */
  function ParseDecimal(s: string): nat
    requires AllDigits(s)
    decreases |s|
  {
    if s == [] then 0 else ParseDecimal(s[..|s| - 1]) * 10 + DigitValue(s[|s| - 1])
  }

  /** A numeral without superfluous leading zeros. */
  predicate IsCanonical(s: string) {
    |s| >= 1 && AllDigits(s) && (|s| == 1 || s[0] != '0')
  }

  lemma {:induction false} ParseToDecimal(n: nat)
    ensures ParseDecimal(ToDecimal(n)) == n
    decreases n
  {
    if n >= 10 {
      var a := ToDecimal(n / 10);
      var s := a + [DigitChar(n % 10)];
      assert s[..|s| - 1] == a;
      ParseToDecimal(n / 10);
    }
  }

  lemma {:induction false} ToDecimalCanonical(n: nat)
    ensures IsCanonical(ToDecimal(n))
    decreases n
  {
    if n >= 10 {
      ToDecimalCanonical(n / 10);
      assert ToDecimal(n)[0] == ToDecimal(n / 10)[0];
    }
  }

  /** Rendering and parsing are inverse on canonical numerals. */
  lemma {:induction false} ToDecimalOfParse(s: string)
    requires IsCanonical(s)
    ensures ToDecimal(ParseDecimal(s)) == s
    decreases |s|
  {
    var n := ParseDecimal(s);
    if |s| > 1 {
      var a := s[..|s| - 1];
      assert IsCanonical(a) by { assert a[0] == s[0]; }
      ToDecimalOfParse(a);
      ParseLowerBound(a);
      assert n / 10 == ParseDecimal(a) && n % 10 == DigitValue(s[|s| - 1]);
      assert s == a + [s[|s| - 1]];
    }
  }

  /** A canonical numeral of two or more digits denotes at least 10. */
  lemma {:induction false} ParseLowerBound(s: string)
    requires IsCanonical(s)
    ensures |s| > 1 ==> ParseDecimal(s) >= 10
    ensures ParseDecimal(s) >= 1 || s == "0"
    decreases |s|
  {
    if |s| > 1 {
      var a := s[..|s| - 1];
      assert IsCanonical(a) by { assert a[0] == s[0]; }
      ParseLowerBound(a);
    }
  }

  /** Different numbers get different numerals. */
  lemma ToDecimalInjective(a: nat, b: nat)
    ensures ToDecimal(a) == ToDecimal(b) <==> a == b
  {
    if ToDecimal(a) == ToDecimal(b) {
      ParseToDecimal(a);
      ParseToDecimal(b);
    }
  }
}

=== FILE: file_system.dfy ===
/** The part of a Hadoop `FileSystem` the HDFS stores use, as a pure state:
    a map from parsed paths to files (content) and directories, each with
    its ACL entries. The root directory is never added as an ancestor of
    another path; only `mkdirs` of the root itself makes it an entry. */
module FileSystem {
  import opened Base
  import opened HadoopPath

  /** `AclEntryScope`. */
  datatype AclScope = Access | Default

  /** The `FsAction` values an ACL entry can grant. */
  datatype FsAction = NoAction | Execute | Read | ReadExecute | All

  /** A named-user ACL entry is identified by its scope and user; a second
      entry for the same key replaces the first. */
  datatype AclKey = AclKey(scope: AclScope, user: string)

  type Acl = map<AclKey, FsAction>

  datatype Node = File(content: Bytes, acl: Acl) | Directory(acl: Acl)

  type Fs = map<Path, Node>

  predicate IsFile(fs: Fs, p: Path) {
    p in fs && fs[p].File?
  }

  predicate IsDir(fs: Fs, p: Path) {
    p in fs && fs[p].Directory?
  }

  /** The directories `mkdirs(p)` needs: `p` and every directory above it. */
  function DirsFor(p: Path): set<Path> {
    Ancestors(p) + {p}
  }

  /** No file sits at `p` or at any directory above it. */
  predicate NoFileOn(fs: Fs, p: Path) {
    forall q :: q in DirsFor(p) ==> !IsFile(fs, q)
  }

  /** `mkdirs(p)`: creates `p` and its missing ancestors as empty
      directories; a file in the way raises an IOException. */
  function Mkdirs(fs: Fs, p: Path): (r: Result<Fs>)
    ensures r.Success? <==> NoFileOn(fs, p)
    ensures r.Failure? ==> r.error == IoFailure
    ensures r.Success? ==> forall q :: q in DirsFor(p) ==> IsDir(r.value, q)
    ensures r.Success? ==> forall q :: q in fs ==> q in r.value && r.value[q] == fs[q]
    ensures r.Success? ==> forall q :: q in r.value && q !in fs ==> q in DirsFor(p) && r.value[q] == Directory(map[])
  {
    if !NoFileOn(fs, p) then Failure(IoFailure)
    else Success(map q | q in fs.Keys + DirsFor(p) :: if q in fs then fs[q] else Directory(map[]))
  }

  /** `delete(d, true)`: removes `d` and everything below it. */
  function Delete(fs: Fs, d: Path): (r: Fs)
    ensures d !in r
    ensures forall q :: q in r <==> q in fs && !InSubtree(q, d)
    ensures forall q :: q in r ==> r[q] == fs[q]
  {
    map q | q in fs && !InSubtree(q, d) :: fs[q]
  }

  /** `create(p)` with overwrite: replaces a file or makes a new empty one,
      creating missing parent directories; a directory at `p` or a file
      above it raises an IOException. The new file has no ACL entries. */
  function Create(fs: Fs, p: Path, content: Bytes): (r: Result<Fs>)
    ensures r.Success? <==> !IsDir(fs, p) && forall q :: q in Ancestors(p) ==> !IsFile(fs, q)
    ensures r.Failure? ==> r.error == IoFailure
    ensures r.Success? ==> p in r.value && r.value[p] == File(content, map[])
    ensures r.Success? ==> forall q :: q in Ancestors(p) ==> IsDir(r.value, q)
    ensures r.Success? ==> forall q :: q in fs && q != p ==> q in r.value && r.value[q] == fs[q]
    ensures r.Success? ==> forall q :: q in r.value && q !in fs && q != p ==> q in Ancestors(p) && r.value[q] == Directory(map[])
  {
    if IsDir(fs, p) || exists q :: q in Ancestors(p) && IsFile(fs, q) then Failure(IoFailure)
    else Success(map q | q in fs.Keys + DirsFor(p) ::
      if q == p then File(content, map[]) else if q in fs then fs[q] else Directory(map[]))
  }

  /** `modifyAclEntries(p, entries)`: adds the entries to `p`'s ACL,
      replacing entries with the same key; a missing path raises
      FileNotFoundException. */
  function ModifyAcl(fs: Fs, p: Path, entries: Acl): (r: Result<Fs>)
    ensures r.Success? <==> p in fs
    ensures r.Failure? ==> r.error == FileNotFound
    ensures r.Success? ==> r.value.Keys == fs.Keys
    ensures r.Success? ==> forall q :: q in fs && q != p ==> r.value[q] == fs[q]
    ensures r.Success? ==> r.value[p].File? == fs[p].File?
    ensures r.Success? ==> fs[p].File? ==> r.value[p].content == fs[p].content
    ensures r.Success? ==> forall k :: k in r.value[p].acl <==> k in fs[p].acl || k in entries
    ensures r.Success? ==> forall k :: k in entries ==> r.value[p].acl[k] == entries[k]
    ensures r.Success? ==> forall k :: k in fs[p].acl && k !in entries ==> r.value[p].acl[k] == fs[p].acl[k]
  {
    if p !in fs then Failure(FileNotFound)
    else Success(fs[p := fs[p].(acl := fs[p].acl + entries)])
  }

  /** `open(p)`: the content of the file at `p`; anything else raises
      FileNotFoundException (HDFS refuses to open a directory that way too). */
  function Open(fs: Fs, p: Path): (r: Result<Bytes>)
    ensures r.Success? <==> IsFile(fs, p)
    ensures r.Success? ==> r.value == fs[p].content
    ensures r.Failure? ==> r.error == FileNotFound
  {
    if IsFile(fs, p) then Success(fs[p].content) else Failure(FileNotFound)
  }

  /** One ACL entry per user, all in `scope` and granting `action`. */
  function UserAcl(users: seq<string>, scope: AclScope, action: FsAction): (r: Acl)
    ensures forall k :: k in r <==> k.scope == scope && k.user in users
    ensures forall k :: k in r ==> r[k] == action
  {
    map u | u in users :: AclKey(scope, u) := action
  }

  // ------------------------------------------------------------- lemmas

  /** A second `mkdirs` of the same path changes nothing. */
  lemma MkdirsIdempotent(fs: Fs, p: Path)
    requires Mkdirs(fs, p).Success?
    ensures Mkdirs(Mkdirs(fs, p).value, p) == Mkdirs(fs, p)
  {
    var fs1 := Mkdirs(fs, p).value;
    assert NoFileOn(fs1, p);
    var fs2 := Mkdirs(fs1, p).value;
    assert fs2.Keys == fs1.Keys;
    assert fs2 == fs1;
  }

  /** `mkdirs` of a path whose directories all exist changes nothing. */
  lemma MkdirsExisting(fs: Fs, p: Path)
    requires forall q :: q in DirsFor(p) ==> IsDir(fs, q)
    ensures Mkdirs(fs, p) == Success(fs)
  {
    var fs1 := Mkdirs(fs, p).value;
    assert fs1.Keys == fs.Keys;
    assert fs1 == fs;
  }

  /** After a delete the deleted subtree cannot be opened. */
  lemma OpenAfterDelete(fs: Fs, d: Path, p: Path)
    requires InSubtree(p, d)
    ensures Open(Delete(fs, d), p) == Failure(FileNotFound)
  {
  }

  /** Creating a file whose parent directories all exist adds just the
      file. */
  lemma CreateInExistingDir(fs: Fs, p: Path, content: Bytes)
    requires p !in fs && forall q :: q in Ancestors(p) ==> IsDir(fs, q)
    ensures Create(fs, p, content) == Success(fs[p := File(content, map[])])
  {
    var fs1 := Create(fs, p, content).value;
    assert fs1.Keys == fs.Keys + {p};
    assert fs1 == fs[p := File(content, map[])];
  }
}

=== FILE: hadoop_path.dfy ===
/** Hadoop's `Path`, as far as the HDFS object store relies on it. A path
    string is split into an optional "scheme:" (a colon before the first
    slash), an optional "//authority", and the path component. `MakePath`
    is the location HDFS resolves such a string to: an empty authority is
    dropped, runs of '/' are collapsed, and one trailing '/' is dropped
    unless the component is the root "/". It treats "." and ".." as plain
    names. The Path that `new Path(String)` literally builds, with its
    single "//" replacement pass and `URI.normalize`, is `HadoopUri.NewPath`;
    for components without '.' both name the same location
    (`HadoopUri.NewPathAgrees`). Two Paths are equal when both parts are
    equal. */
module HadoopPath {
  import opened Strings

  /** `prefix` is the scheme and a non-empty authority as written
      (possibly empty); `path` is the path component. */
  datatype Path = Path(prefix: string, path: string)

  /** `Path.toString`. */
  function Text(p: Path): string {
    p.prefix + p.path
  }

  predicate NoDoubleSlash(p: string) {
    forall i :: 0 <= i < |p| - 1 ==> !(p[i] == '/' && p[i + 1] == '/')
  }

  /** A normalised path component: no "//" and no trailing '/' except for
      the root "/" itself. */
  predicate IsNormal(p: string) {
    NoDoubleSlash(p) && (|p| <= 1 || p[|p| - 1] != '/')
  }

  predicate AllSlashes(s: string) {
    forall i :: 0 <= i < |s| ==> s[i] == '/'
  }

  /** A non-empty file or directory name without separators. */
  predicate IsName(s: string) {
    s != [] && forall i :: 0 <= i < |s| ==> s[i] != '/'
  }

  // ---------------------------------------------------------------- parsing

  /** A colon before the first slash marks a scheme. */
  predicate HasScheme(s: string) {
    ':' in s[..IndexOf(s, '/')]
  }

  /** Where the text after "scheme:" starts. */
  function SchemeEnd(s: string): (k: nat)
    ensures k <= |s|
    ensures HasScheme(s) ==> k == IndexOf(s, ':') + 1 && IndexOf(s, ':') < IndexOf(s, '/')
  {
    if HasScheme(s) then
      var i :| 0 <= i < IndexOf(s, '/') && s[i] == ':';
      IndexOf(s, ':') + 1
    else 0
  }

  /** Where the path component starts, given where the text after the scheme
      starts: "//" followed by at least one more character opens an
      authority that runs to the next '/'. */
  function AuthorityEnd(s: string, start: nat): (k: nat)
    requires start <= |s|
    ensures start <= k <= |s|
  {
    if |s| - start > 2 && s[start] == '/' && s[start + 1] == '/' then
      start + 2 + IndexOf(s[start + 2..], '/')
    else start
  }

  function PathStart(s: string): (k: nat)
    ensures k <= |s|
  {
    AuthorityEnd(s, SchemeEnd(s))
  }

  // ---------------------------------------------------------- normalisation

  /** Drops every '/' that directly follows another '/'. */
  function Collapse(p: string): (r: string)
    ensures |r| <= |p| && (r == []) == (p == [])
    ensures p != [] ==> r[0] == p[0] && r[|r| - 1] == p[|p| - 1]
    ensures NoDoubleSlash(r)
    ensures forall c :: c in r ==> c in p
    decreases |p|
  {
    if |p| < 2 then p
    else if p[0] == '/' && p[1] == '/' then Collapse(p[1..])
    else [p[0]] + Collapse(p[1..])
  }

  function TrimTrailingSlash(p: string): string {
    if |p| > 1 && p[|p| - 1] == '/' then p[..|p| - 1] else p
  }

  function NormalizePath(p: string): (r: string)
    ensures IsNormal(r)
    ensures (r == []) == (p == [])
    ensures p != [] ==> r[0] == p[0]
    ensures forall c :: c in r ==> c in p
  {
    TrimTrailingSlash(Collapse(p))
  }

  /** The scheme and authority as the parsed path keeps them. An empty
      authority, as in "hdfs:///x", is dropped: `java.net.URI` reads "//"
      followed directly by '/' as no authority at all. */
  function Prefix(s: string): (pre: string)
    ensures SchemeEnd(s) <= |pre| <= PathStart(s) && pre == s[..|pre|]
    ensures |pre| == PathStart(s) <==> PathStart(s) - SchemeEnd(s) != 2
  {
    if PathStart(s) - SchemeEnd(s) == 2 then s[..SchemeEnd(s)] else s[..PathStart(s)]
  }

  /** The location HDFS resolves `new Path(s)` to; Hadoop refuses the
      empty string. */
  function MakePath(s: string): Path
    requires s != []
  {
    Path(Prefix(s), NormalizePath(s[PathStart(s)..]))
  }

  // ---------------------------------------------------- normalisation facts

  lemma {:induction false} CollapseFixed(p: string)
    requires NoDoubleSlash(p)
    ensures Collapse(p) == p
    decreases |p|
  {
    if |p| >= 2 {
      CollapseFixed(p[1..]);
      assert p == [p[0]] + p[1..];
    }
  }

  /** Normalising is the identity on normalised components. */
  lemma NormalFixed(p: string)
    requires IsNormal(p)
    ensures NormalizePath(p) == p
  {
    CollapseFixed(p);
  }

  /** Collapsing distributes over a concatenation whose left part does not
      end with '/'. */
  lemma {:induction false} CollapseAppend(a: string, b: string)
    requires a == [] || a[|a| - 1] != '/'
    ensures Collapse(a + b) == Collapse(a) + Collapse(b)
    decreases |a|
  {
    if a != [] {
      var ab := a + b;
      assert ab[0] == a[0];
      assert ab[1..] == a[1..] + b;
      if |a| == 1 {
        if b == [] {
          assert ab == a;
        } else {
          assert ab[1..] == b;
          assert Collapse(ab) == [a[0]] + Collapse(b);
        }
      } else {
        assert ab[1] == a[1];
        CollapseAppend(a[1..], b);
        if a[0] == '/' && a[1] == '/' {
          assert Collapse(ab) == Collapse(a[1..] + b);
        } else {
          assert Collapse(ab) == [a[0]] + Collapse(a[1..] + b);
          assert Collapse(a) == [a[0]] + Collapse(a[1..]);
        }
      }
    } else {
      assert a + b == b;
    }
  }

  /** "/" followed by `r` collapses to "/" exactly when `r` is all slashes. */
  lemma {:induction false} CollapseLeadingSlash(r: string)
    ensures Collapse("/" + r) == "/" <==> AllSlashes(r)
    decreases |r|
  {
    if r != [] {
      assert ("/" + r)[1..] == r;
      if r[0] == '/' {
        assert r == "/" + r[1..];
        CollapseLeadingSlash(r[1..]);
        assert AllSlashes(r) <==> AllSlashes(r[1..]) by {
          if AllSlashes(r[1..]) {
            forall i | 0 <= i < |r|
              ensures r[i] == '/'
            {
              if i > 0 {
                assert r[i] == r[1..][i - 1];
              }
            }
          }
        }
      } else {
        assert Collapse("/" + r) == "/" + Collapse(r);
        assert !AllSlashes(r);
      }
    }
  }

  /** Appending "/" and `r` to a normalised component other than "" and "/"
      either gives the component back (when `r` is only slashes) or extends
      it by a normalised tail that starts with '/' and has a name in it. */
  lemma NormalizeAppend(q: string, r: string)
    requires IsNormal(q) && q != [] && q != "/"
    ensures var t := NormalizePath("/" + r);
      && t[0] == '/'
      && (AllSlashes(r) ==> NormalizePath(q + "/" + r) == q)
      && (!AllSlashes(r) ==> |t| >= 2 && t[|t| - 1] != '/' && NormalizePath(q + "/" + r) == q + t)
  {
    var d := Collapse("/" + r);
    CollapseOfAppend(q, r);
    CollapseLeadingSlash(r);
    assert d[0] == '/';
    if !AllSlashes(r) {
      TrimAppend(q, d);
    } else {
      assert (q + d)[..|q + d| - 1] == q;
    }
  }

  lemma CollapseOfAppend(q: string, r: string)
    requires IsNormal(q) && q != [] && q != "/"
    ensures Collapse(q + "/" + r) == q + Collapse("/" + r)
  {
    CollapseFixed(q);
    assert q + "/" + r == q + ("/" + r);
    CollapseAppend(q, "/" + r);
  }

  lemma TrimAppend(q: string, d: string)
    requires |d| >= 2
    ensures TrimTrailingSlash(q + d) == q + TrimTrailingSlash(d)
  {
    if d[|d| - 1] == '/' {
      assert (q + d)[..|q + d| - 1] == q + d[..|d| - 1];
    }
  }

  lemma NameIsNormal(u: string)
    requires IsName(u)
    ensures IsNormal("/" + u) && NormalizePath("/" + u) == "/" + u
  {
    var p := "/" + u;
    forall i | 0 <= i < |p| - 1
      ensures !(p[i] == '/' && p[i + 1] == '/')
    {
      assert p[i + 1] == u[i];
    }
    NormalFixed(p);
  }

  lemma TwoNamesAreNormal(u: string, v: string)
    requires IsName(u) && IsName(v)
    ensures IsNormal("/" + u + "/" + v) && NormalizePath("/" + u + "/" + v) == "/" + u + "/" + v
  {
    var p := "/" + u + "/" + v;
    forall i | 0 <= i < |p| - 1
      ensures !(p[i] == '/' && p[i + 1] == '/')
    {
      if i < |u| {
        assert p[i + 1] == u[i];
      } else if i == |u| {
        assert p[i] == u[|u| - 1];
      } else {
        assert p[i + 1] == v[i - |u| - 1];
      }
    }
    NormalFixed(p);
  }

  // ----------------------------------------------------- re-parsing a path

  lemma IndexOfCons(x: char, r: string, c: char)
    requires x != c
    ensures IndexOf([x] + r, c) == 1 + IndexOf(r, c)
  {
    assert ([x] + r)[1..] == r;
  }

  /** The text before the first '/' of a string that starts with another
      character is that character followed by the rest's such text. */
  lemma HeadCons(x: char, r: string)
    requires x != '/'
    ensures ([x] + r)[..IndexOf([x] + r, '/')] == [x] + r[..IndexOf(r, '/')]
  {
    IndexOfCons(x, r, '/');
    var i := IndexOf(r, '/');
    assert ([x] + r)[..1 + i] == [x] + r[..i];
  }

  /** The characters before the first '/' survive collapsing unchanged. */
  lemma {:induction false} CollapseKeepsHead(s: string)
    ensures Collapse(s)[..IndexOf(Collapse(s), '/')] == s[..IndexOf(s, '/')]
    decreases |s|
  {
    if |s| >= 2 && s[0] != '/' {
      var c := Collapse(s[1..]);
      assert Collapse(s) == [s[0]] + c;
      CollapseKeepsHead(s[1..]);
      HeadCons(s[0], c);
      assert s == [s[0]] + s[1..];
      HeadCons(s[0], s[1..]);
    }
  }

  lemma NoSchemeAfterTrim(x: string)
    requires !HasScheme(x)
    ensures !HasScheme(TrimTrailingSlash(x))
  {
    if |x| > 1 && x[|x| - 1] == '/' {
      var y := x[..|x| - 1];
      var sx := IndexOf(x, '/');
      assert x[..|y|] == y[..|y|];
      IndexOfAgree(x, y, '/', |y|);
      if sx < |y| {
        assert y[..sx] == x[..sx];
      } else {
        assert y[..IndexOf(y, '/')] == x[..sx];
      }
    }
  }

  lemma NoSchemeAppend(x: string, w: string)
    requires !HasScheme(x)
    requires w == [] || w[0] == '/'
    ensures !HasScheme(x + w)
  {
    var t := x + w;
    var sx := IndexOf(x, '/');
    assert t[..|x|] == x[..|x|];
    IndexOfAgree(x, t, '/', |x|);
    if sx < |x| {
      assert t[..sx] == x[..sx];
    } else if w != [] {
      assert t[|x|] == '/';
      assert t[..IndexOf(t, '/')] == x[..sx];
    } else {
      assert t == x;
    }
  }

  /** A scheme found before position `n` is found again in any string that
      agrees on the first `n` characters. */
  lemma SchemeAgree(s: string, t: string, n: nat)
    requires HasScheme(s) && SchemeEnd(s) <= n <= |s| && n <= |t| && s[..n] == t[..n]
    ensures HasScheme(t) && SchemeEnd(t) == SchemeEnd(s)
  {
    var colon := IndexOf(s, ':');
    IndexOfAgree(s, t, ':', n);
    IndexOfAgree(s, t, '/', n);
    assert s[..n][colon] == t[..n][colon];
    assert t[..IndexOf(t, '/')][colon] == ':';
  }

  lemma NoSchemeAgree(s: string, t: string, n: nat)
    requires !HasScheme(s) && IndexOf(s, '/') < n <= |s| && n <= |t| && s[..n] == t[..n]
    ensures !HasScheme(t)
  {
    IndexOfAgree(s, t, '/', n);
    var i := IndexOf(s, '/');
    assert t[..i] == t[..n][..i];
  }

  /** An empty authority is "//" followed directly by the path's '/'. */
  lemma EmptyAuthority(s: string)
    requires PathStart(s) - SchemeEnd(s) == 2
    ensures PathStart(s) < |s| && s[PathStart(s)] == '/'
  {
    var start := SchemeEnd(s);
    var x := s[start + 2..];
    assert IndexOf(x, '/') == 0;
  }

  /** Re-parsing the text of a parsed path, extended by `w`, finds the same
      scheme. */
  lemma SchemeEndStable(s: string, w: string)
    requires s != []
    requires w == [] || (w[0] == '/' && MakePath(s).path != [] && MakePath(s).path != "/")
    ensures SchemeEnd(Text(MakePath(s)) + w) == SchemeEnd(s)
  {
    var k := PathStart(s);
    var c := MakePath(s);
    var n := |c.prefix|;
    var t := Text(c) + w;
    assert t == c.prefix + (c.path + w);
    assert t[..n] == s[..n];
    if HasScheme(s) {
      SchemeAgree(s, t, n);
    } else if IndexOf(s, '/') < n {
      NoSchemeAgree(s, t, n);
    } else if k > 0 {
      EmptyAuthority(s);
      assert n == 0 && t == c.path + w && c.path[0] == '/';
      assert t[0] == '/';
    } else {
      CollapseKeepsHead(s);
      NoSchemeAfterTrim(Collapse(s));
      assert s[0..] == s;
      NoSchemeAppend(c.path, w);
      assert t == c.path + w;
    }
  }

  /** Re-parsing the text of a parsed path, extended by `w`, finds the same
      authority, so the path component starts right after the prefix. */
  lemma PathStartStable(s: string, w: string)
    requires s != []
    requires w == [] || (w[0] == '/' && MakePath(s).path != [] && MakePath(s).path != "/")
    ensures PathStart(Text(MakePath(s)) + w) == |MakePath(s).prefix|
  {
    var k := PathStart(s);
    var c := MakePath(s);
    var p := c.path;
    var t := c.prefix + (p + w);
    ConcatAssoc(c.prefix, p, w);
    assert Text(c) + w == t;
    SchemeEndStable(s, w);
    var start := SchemeEnd(s);
    assert PathStart(t) == AuthorityEnd(t, start);
    if k - start == 2 {
      EmptyAuthority(s);
      EmptyAuthorityStable(c.prefix, p, w);
    } else if |s| - start > 2 && s[start] == '/' && s[start + 1] == '/' {
      assert k == AuthorityEnd(s, start) && c.prefix == s[..k];
      AuthorityStable(s, start, k, p, w);
    } else {
      assert k == start && c.prefix == s[..start];
      NoAuthorityStable(s, start, p, w);
    }
  }

  lemma AuthorityStable(s: string, start: nat, k: nat, p: string, w: string)
    requires start <= |s| && |s| - start > 2 && s[start] == '/' && s[start + 1] == '/'
    requires k == AuthorityEnd(s, start) && p == NormalizePath(s[k..])
    requires w == [] || (w[0] == '/' && p != [])
    ensures AuthorityEnd(s[..k] + (p + w), start) == k
  {
    var t := s[..k] + (p + w);
    if k == |s| {
      assert p == [] && w == [];
      assert t == s;
    } else {
      var x := s[start + 2..];
      var n := k - start - 2;
      assert x[n] == '/';
      assert s[k..][0] == '/';
      assert t[k] == '/';
      var y := t[start + 2..];
      forall j | 0 <= j < n
        ensures y[j] != '/'
      {
        assert y[j] == x[j];
      }
      IndexOfExact(y, '/', n);
    }
  }

  /** A normalised component starting with '/' opens no authority. */
  lemma EmptyAuthorityStable(pre: string, p: string, w: string)
    requires IsNormal(p) && p != [] && p[0] == '/'
    requires w == [] || (w[0] == '/' && p != "/")
    ensures AuthorityEnd(pre + (p + w), |pre|) == |pre|
  {
    var t := pre + (p + w);
    assert t[|pre|] == '/';
    if |p| >= 2 {
      assert t[|pre| + 1] == p[1] != '/';
    } else {
      assert w == [] && |t| - |pre| == 1;
    }
  }

  lemma NoAuthorityStable(s: string, start: nat, p: string, w: string)
    requires start <= |s| && !(|s| - start > 2 && s[start] == '/' && s[start + 1] == '/')
    requires p == NormalizePath(s[start..])
    requires w == [] || (w[0] == '/' && p != [] && p != "/")
    ensures AuthorityEnd(s[..start] + (p + w), start) == start
  {
    var t := s[..start] + (p + w);
    assert t[start..] == p + w;
    if |p| >= 2 {
      assert t[start] == p[0] && t[start + 1] == p[1];
    } else if |p| == 1 && w != [] {
      assert t[start] == p[0];
    }
  }

  /** Re-parsing the text of a parsed path, extended by `w` (nothing, or
      text starting with '/' when the path component is neither empty nor
      the root), keeps the scheme and authority and normalises the extended
      path component. */
  lemma ParseStable(s: string, w: string)
    requires s != []
    requires w == [] || (w[0] == '/' && MakePath(s).path != [] && MakePath(s).path != "/")
    ensures Text(MakePath(s)) + w != []
    ensures MakePath(Text(MakePath(s)) + w) == Path(MakePath(s).prefix, NormalizePath(MakePath(s).path + w))
  {
    var k := PathStart(s);
    var c := MakePath(s);
    var n := |c.prefix|;
    var t := Text(c) + w;
    assert t == c.prefix + (c.path + w);
    assert n == 0 ==> k == 0 || k == 2;
    assert n == 0 && k == 0 ==> s[k..] == s;
    PathStartStable(s, w);
    SchemeEndStable(s, w);
    assert t[..n] == c.prefix && t[n..] == c.path + w;
    if k - SchemeEnd(s) == 2 {
      EmptyAuthority(s);
      assert n == SchemeEnd(t) && Prefix(t) == t[..n];
    }
  }

  /** Parsing the text of a parsed path gives the same path back. */
  lemma MakePathIdempotent(s: string)
    requires s != []
    ensures Text(MakePath(s)) != [] && MakePath(Text(MakePath(s))) == MakePath(s)
  {
    ParseStable(s, []);
    assert MakePath(s).path + [] == MakePath(s).path;
    NormalFixed(MakePath(s).path);
    assert Text(MakePath(s)) + [] == Text(MakePath(s));
  }

  // ------------------------------------------------ children and subtrees

  /** A directory path that further paths are built under: a parsed path
      whose component is neither empty nor the root. */
  predicate IsChroot(c: Path) {
    Text(c) != [] && MakePath(Text(c)) == c && c.path != [] && c.path != "/"
  }

  lemma ParsedChroot(s: string)
    requires s != [] && MakePath(s).path != [] && MakePath(s).path != "/"
    ensures IsChroot(MakePath(s))
  {
    MakePathIdempotent(s);
  }

  /** The path a store addresses as `new Path(parent + "/" + r)`: the
      parent's scheme and authority, and the normalised component
      `parent.path + "/" + r`. ChildParse shows this is what parsing that
      text yields when the parent is a chroot. */
  function Child(parent: Path, r: string): Path {
    Path(parent.prefix, NormalizePath(parent.path + "/" + r))
  }

  /** Re-parsing the text of a parsed path extended by "/..." keeps the prefix. */
  lemma ReparseAppend(c: Path, w: string, t: string)
    requires Text(c) != [] && MakePath(Text(c)) == c
    requires w == [] || (w[0] == '/' && c.path != [] && c.path != "/")
    requires t == Text(c) + w
    ensures t != [] && MakePath(t) == Path(c.prefix, NormalizePath(c.path + w))
  {
    ParseStable(Text(c), w);
  }

  lemma ChildParse(c: Path, r: string)
    requires IsChroot(c)
    ensures Text(c) + "/" + r != [] && MakePath(Text(c) + "/" + r) == Child(c, r)
  {
    ConcatAssoc(Text(c), "/", r);
    ReparseAppend(c, "/" + r, Text(c) + "/" + r);
    ConcatAssoc(c.path, "/", r);
  }

  lemma ChrootNormal(c: Path)
    requires IsChroot(c)
    ensures IsNormal(c.path) && c.path != [] && c.path != "/"
  {
    assert c == MakePath(Text(c));
  }

  lemma ChildShape(c: Path, r: string)
    requires IsChroot(c)
    ensures AllSlashes(r) ==> Child(c, r) == c
    ensures !AllSlashes(r) ==> var t := NormalizePath("/" + r);
      && |t| >= 2 && t[0] == '/' && t[|t| - 1] != '/'
      && Child(c, r) == Path(c.prefix, c.path + t)
  {
    ChrootNormal(c);
    NormalizeAppend(c.path, r);
  }

  lemma ChildOfName(c: Path, u: string)
    requires IsChroot(c) && IsName(u)
    ensures Child(c, u) == Path(c.prefix, c.path + "/" + u)
  {
    assert !AllSlashes(u) by { assert u[0] != '/'; }
    ChildShape(c, u);
    NameIsNormal(u);
    ConcatAssoc(c.path, "/", u);
  }

  lemma ChildOfTwoNames(c: Path, u: string, v: string)
    requires IsChroot(c) && IsName(u) && IsName(v)
    ensures Child(c, u + "/" + v) == Path(c.prefix, c.path + "/" + u + "/" + v)
  {
    var r := u + "/" + v;
    assert !AllSlashes(r) by { assert r[0] == u[0]; }
    ChildShape(c, r);
    TwoNamesAreNormal(u, v);
    ConcatAssoc("/" + u, "/", v);
    ConcatAssoc("/", u, "/" + v);
    ConcatAssoc(u, "/", v);
    assert "/" + r == "/" + u + "/" + v;
    ConcatAssoc(c.path, "/" + u + "/", v);
    ConcatAssoc(c.path, "/" + u, "/");
    ConcatAssoc(c.path, "/", u);
  }

  /** What a recursive delete of `d` removes: `d` and every path below it. */
  predicate InSubtree(x: Path, d: Path) {
    x.prefix == d.prefix && (x.path == d.path || StartsWith(x.path, DirPrefix(d.path)))
  }

  function DirPrefix(p: string): string {
    if p != [] && p[|p| - 1] == '/' then p else p + "/"
  }

  /** Below a child that is not the chroot itself lies nothing but paths
      strictly below the chroot: in particular not the chroot. */
  lemma ChildSubtreeInsideChroot(c: Path, r: string, x: Path)
    requires IsChroot(c) && !AllSlashes(r) && InSubtree(x, Child(c, r))
    ensures InSubtree(x, c) && x != c
  {
    ChildShape(c, r);
    var t := NormalizePath("/" + r);
    var q := c.path;
    ChrootNormal(c);
    BelowLongerDir(x.path, q, t);
  }

  lemma BelowLongerDir(x: string, q: string, t: string)
    requires q != [] && q[|q| - 1] != '/' && |t| >= 2 && t[0] == '/' && t[|t| - 1] != '/'
    requires x == q + t || StartsWith(x, DirPrefix(q + t))
    ensures StartsWith(x, DirPrefix(q)) && x != q
  {
    assert DirPrefix(q + t) == q + t + "/";
    assert DirPrefix(q) == q + "/";
    assert StartsWith(x, q + t);
    assert x[..|q| + 1] == (q + t)[..|q| + 1];
    assert (q + t)[..|q| + 1] == q + "/";
  }

  lemma ChrootOutsideChild(c: Path, r: string)
    requires IsChroot(c) && !AllSlashes(r)
    ensures !InSubtree(c, Child(c, r))
  {
    ChildShape(c, r);
  }

  /** The directories above `p` inside its file system: every proper prefix
      of the component that ends just before a '/'. */
  function Ancestors(p: Path): set<Path> {
    set i | 0 < i < |p.path| && p.path[i] == '/' :: Path(p.prefix, p.path[..i])
  }

  /** The ancestors of `q/u` are those of `q` and `q` itself. */
  lemma AncestorsOfChild(pre: string, q: string, u: string)
    requires q != [] && IsName(u)
    ensures Ancestors(Path(pre, q + "/" + u)) == Ancestors(Path(pre, q)) + {Path(pre, q)}
  {
    var x := q + "/" + u;
    var a, b := Ancestors(Path(pre, x)), Ancestors(Path(pre, q)) + {Path(pre, q)};
    forall y | y in a
      ensures y in b
    {
      var i :| 0 < i < |x| && x[i] == '/' && y == Path(pre, x[..i]);
      if i < |q| {
        assert q[i] == '/' && x[..i] == q[..i];
      } else if i == |q| {
        assert x[..i] == q;
      } else {
        assert false;
      }
    }
    forall y | y in b
      ensures y in a
    {
      if y == Path(pre, q) {
        assert x[|q|] == '/' && x[..|q|] == q;
      } else {
        var i :| 0 < i < |q| && q[i] == '/' && y == Path(pre, q[..i]);
        assert x[i] == '/' && x[..i] == q[..i];
      }
    }
  }

  /** A path is in its own subtree and in no subtree whose root is longer. */
  lemma AncestorNotBelow(p: Path, a: Path)
    requires a in Ancestors(p)
    ensures |a.path| < |p.path| && a.prefix == p.prefix && StartsWith(p.path, a.path + "/")
  {
    var i :| 0 < i < |p.path| && p.path[i] == '/' && a == Path(p.prefix, p.path[..i]);
    assert p.path[..i + 1] == p.path[..i] + "/";
  }

  // ------------------------------------------------------ root chroots

  /** Appending "/" and a name to the text of a root path without an
      authority, such as "/", yields "//name", which parses as an authority
      with an empty path component. */
  lemma RootTextChild(u: string)
    requires IsName(u)
    ensures MakePath("" + "/" + "/" + u) == Path("//" + u, [])
  {
    var s := "//" + u;
    assert "" + "/" + "/" + u == s;
    assert s[..0] == [];
    assert !HasScheme(s);
    assert s[2..] == u;
    IndexOfExact(s, '/', 0);
    assert IndexOf(u, '/') == |u|;
    assert PathStart(s) == |s|;
    assert s[..|s|] == s;
  }

  /** The child of a root directory is the name directly below it. */
  lemma ChildOfRoot(pre: string, u: string)
    requires IsName(u)
    ensures Child(Path(pre, "/"), u) == Path(pre, "/" + u)
    ensures InSubtree(Child(Path(pre, "/"), u), Path(pre, "/")) && Child(Path(pre, "/"), u) != Path(pre, "/")
  {
    var r := "/" + "/" + u;
    assert r[1..] == "/" + u;
    assert Collapse(r) == Collapse("/" + u);
    NameIsNormal(u);
    assert NormalizePath(r) == "/" + u;
    assert StartsWith("/" + u, DirPrefix("/"));
  }

  // ------------------------------------------------------------- examples

  /** "scheme:///name" has an empty authority, which the parsed path drops:
      its text is "scheme:/name". */
  lemma EmptyAuthorityDropped(u: string, v: string)
    requires IsName(u) && ':' !in u && IsName(v)
    ensures MakePath(u + ":///" + v) == Path(u + ":", "/" + v)
    ensures Text(MakePath(u + ":///" + v)) == u + ":/" + v
  {
    var s := u + ":///" + v;
    EmptyAuthorityParts(u, v);
    NameIsNormal(v);
    assert MakePath(s) == Path(u + ":", NormalizePath("/" + v));
  }

  /** Where the pieces of "u:///v" start: the scheme ends after the ':' and
      the empty authority "//" is skipped. */
  lemma EmptyAuthorityParts(u: string, v: string)
    requires IsName(u) && ':' !in u
    ensures var s := u + ":///" + v;
      && SchemeEnd(s) == |u| + 1 && PathStart(s) == |u| + 3
      && Prefix(s) == u + ":" && s[PathStart(s)..] == "/" + v
  {
    var s := u + ":///" + v;
    SchemeOfName(u, "///" + v);
    assert s == u + ":" + ("///" + v);
    var start := |u| + 1;
    assert s[start..] == "///" + v;
    assert s[start + 2..] == "/" + v;
    assert s[..start] == u + ":";
  }

  /** "name:" followed by '/' is a scheme. */
  lemma SchemeOfName(u: string, w: string)
    requires IsName(u) && ':' !in u && w != [] && w[0] == '/'
    ensures SchemeEnd(u + ":" + w) == |u| + 1
  {
    var s := u + ":" + w;
    assert s[|u|] == ':' && s[|u| + 1] == '/';
    IndexOfExact(s, ':', |u|);
    IndexOfExact(s, '/', |u| + 1);
    assert s[..|u| + 1][|u|] == ':';
  }

  /** A URL without an empty authority whose path component is already
      normalised is its own parsed text. */
  lemma NormalUrlText(url: string)
    requires url != [] && |Prefix(url)| == PathStart(url) && IsNormal(url[PathStart(url)..])
    ensures Text(MakePath(url)) == url
  {
    var k := PathStart(url);
    NormalFixed(url[k..]);
    PrefixWhole(url);
    SplitJoin(url, k);
  }

  lemma PrefixWhole(s: string)
    requires |Prefix(s)| == PathStart(s)
    ensures Prefix(s) == s[..PathStart(s)]
  {
  }

  lemma SplitJoin(s: string, k: nat)
    requires k <= |s|
    ensures s[..k] + s[k..] == s
  {
  }

  /** A bare folder name without ':' (such as "homeFolder") parses to a
      relative chroot with no scheme or authority. */
  lemma RelativeName(u: string)
    requires IsName(u) && ':' !in u
    ensures PathStart(u) == 0 && MakePath(u) == Path("", u) && IsChroot(MakePath(u))
  {
    assert IndexOf(u, '/') == |u|;
    assert !HasScheme(u) by { assert u[..|u|] == u; }
    assert PathStart(u) == 0;
    assert u[0..] == u;
    NormalFixed(u);
    ParsedChroot(u);
  }
}

=== FILE: hadoop_uri.dfy ===
/** Hadoop's `new Path(String)` as written. After the scheme and authority
    are split off, the path component goes through Hadoop's own
    `normalizePath` and then through `java.net.URI.normalize`:

    - `StringUtils.replace(path, "//", "/")` makes a single left-to-right
      pass, so a run of three slashes still leaves two;
    - one trailing '/' is dropped;
    - `URI.normalize` collapses slash runs and resolves "." and ".."
      segments, keeping a '/' after every segment that had one.

    The path so built is what `Path.equals` compares. HDFS resolves it to
    a location (`Resolve`) by ignoring redundant slashes; `MakePath` gives
    that location directly. `NewPathAgrees` shows the two meet for path
    components without '.'. */
module HadoopUri {
  import opened Strings
  import opened HadoopPath

  /** Commons-lang `StringUtils.replace(p, "//", "/")`: each "//" found
      scanning left to right, without overlaps, becomes one '/'. */
  function ReplaceDoubleSlash(p: string): (r: string)
    ensures |r| <= |p| && (r == []) == (p == [])
    ensures p != [] ==> r[0] == p[0]
    ensures NoDoubleSlash(p) <==> |r| == |p|
    ensures NoDoubleSlash(p) ==> r == p
    ensures forall c :: c in r ==> c in p
    decreases |p|
  {
    if |p| < 2 then p
    else if p[0] == '/' && p[1] == '/' then "/" + ReplaceDoubleSlash(p[2..])
    else
      var r := [p[0]] + ReplaceDoubleSlash(p[1..]);
      assert NoDoubleSlash(p) <==> NoDoubleSlash(p[1..]) by {
        if NoDoubleSlash(p[1..]) {
          forall i | 0 <= i < |p| - 1
            ensures !(p[i] == '/' && p[i + 1] == '/')
          {
            if i > 0 {
              assert p[i] == p[1..][i - 1] && p[i + 1] == p[1..][i];
            }
          }
        }
        if NoDoubleSlash(p) {
          forall i | 0 <= i < |p[1..]| - 1
            ensures !(p[1..][i] == '/' && p[1..][i + 1] == '/')
          {
            assert p[1..][i] == p[i + 1] && p[1..][i + 1] == p[i + 2];
          }
        }
      }
      r
  }

  /** A segment as `java.net.URI` splits a path: a maximal run of
      characters other than '/', and whether a '/' follows it. */
  datatype Segment = Segment(name: string, slashAfter: bool)

  /** The segments of `p`, leading and repeated slashes skipped. */
  function Segments(p: string): (r: seq<Segment>)
    ensures forall i :: 0 <= i < |r| ==> IsName(r[i].name)
    ensures '.' !in p ==> forall i :: 0 <= i < |r| ==> '.' !in r[i].name
    decreases |p|
  {
    if p == [] then []
    else if p[0] == '/' then Segments(p[1..])
    else
      var n := IndexOf(p, '/');
      assert '.' in p[..n] ==> '.' in p;
      [Segment(p[..n], n < |p|)] + Segments(p[n..])
  }

  /** No "." is left, and ".." appears only before every other segment. */
  predicate DotsResolved(segs: seq<Segment>) {
    && (forall i :: 0 <= i < |segs| ==> segs[i].name != ".")
    && (forall i, j :: 0 <= i < j < |segs| && segs[j].name == ".." ==> segs[i].name == "..")
  }

  /** `URI.removeDots`, with the segments kept so far in `kept`: "." is
      dropped, and ".." drops itself and the nearest kept segment before
      it unless there is none or that segment is ".." too. */
  function RemoveDots(segs: seq<Segment>, kept: seq<Segment>): (r: seq<Segment>)
    requires DotsResolved(kept)
    ensures DotsResolved(r)
    ensures |r| <= |kept| + |segs|
    ensures (forall i :: 0 <= i < |segs| ==> IsName(segs[i].name)) && (forall i :: 0 <= i < |kept| ==> IsName(kept[i].name))
      ==> forall i :: 0 <= i < |r| ==> IsName(r[i].name)
    decreases |segs|
  {
    if segs == [] then kept
    else if segs[0].name == "." then RemoveDots(segs[1..], kept)
    else if segs[0].name == ".." && kept != [] && kept[|kept| - 1].name != ".." then
      RemoveDots(segs[1..], kept[..|kept| - 1])
    else RemoveDots(segs[1..], kept + [segs[0]])
  }

  /** `URI.join`: the kept segments, each followed by '/' when the
      original had one after it. */
  function Join(segs: seq<Segment>): (r: string)
    requires forall i :: 0 <= i < |segs| ==> IsName(segs[i].name)
    ensures r == [] || r[0] != '/'
  {
    if segs == [] then []
    else
      var r := segs[0].name + (if segs[0].slashAfter then "/" else "") + Join(segs[1..]);
      assert IsName(segs[0].name) && r[0] == segs[0].name[0];
      r
  }

  /** `URI.normalize` of a path: a leading '/' is kept once. */
  function UriNormalize(p: string): (r: string)
    ensures (r != [] && r[0] == '/') <==> (p != [] && p[0] == '/')
  {
    (if p != [] && p[0] == '/' then "/" else "") + Join(RemoveDots(Segments(p), []))
  }

  /** `new Path(s)`: the scheme and authority as `MakePath` reads them and
      the path component through both normalisations. */
  function NewPath(s: string): (p: Path)
    requires s != []
    ensures p.prefix == MakePath(s).prefix
  {
    Path(Prefix(s), UriNormalize(TrimTrailingSlash(ReplaceDoubleSlash(s[PathStart(s)..]))))
  }

  /** The location HDFS resolves a path to: redundant slashes and a
      trailing '/' do not change it. */
  function Resolve(p: Path): (r: Path)
    ensures r.prefix == p.prefix && IsNormal(r.path)
  {
    Path(p.prefix, NormalizePath(p.path))
  }

  // ------------------------------------------------------------------ facts

  /** Prepending '/' to a path is absorbed by a '/' already there. */
  lemma SlashCons(x: string)
    ensures Collapse("/" + x) == if x != [] && x[0] == '/' then Collapse(x) else "/" + Collapse(x)
  {
    assert ("/" + x)[1..] == x;
  }

  /** A second '/' after a trailing one is absorbed. */
  lemma {:induction false} SlashSnoc(y: string)
    requires y != [] && y[|y| - 1] == '/'
    ensures Collapse(y + "/") == Collapse(y)
    decreases |y|
  {
    if |y| >= 2 {
      assert (y + "/")[1..] == y[1..] + "/";
      SlashSnoc(y[1..]);
    }
  }

  /** The single replace pass does not change where a path leads. */
  lemma {:induction false} ReplaceKeepsLocation(p: string)
    ensures Collapse(ReplaceDoubleSlash(p)) == Collapse(p)
    decreases |p|
  {
    if |p| >= 2 {
      var r := ReplaceDoubleSlash(p);
      if p[0] == '/' && p[1] == '/' {
        var t := p[2..];
        ReplaceKeepsLocation(t);
        assert p[1..] == "/" + t;
        SlashCons(ReplaceDoubleSlash(t));
        SlashCons(t);
      } else {
        var rt := ReplaceDoubleSlash(p[1..]);
        ReplaceKeepsLocation(p[1..]);
        assert r[1..] == rt;
      }
    }
  }

  /** Dropping one trailing '/' first does not change the location. */
  lemma TrimThenCollapse(x: string)
    ensures TrimTrailingSlash(Collapse(TrimTrailingSlash(x))) == TrimTrailingSlash(Collapse(x))
  {
    if |x| > 1 && x[|x| - 1] == '/' {
      var y := x[..|x| - 1];
      assert x == y + "/";
      if y[|y| - 1] == '/' {
        SlashSnoc(y);
      } else {
        CollapseAppend(y, "/");
      }
    }
  }

  /** Without "." or ".." segments nothing is removed. */
  lemma {:induction false} RemoveDotsNone(segs: seq<Segment>, kept: seq<Segment>)
    requires DotsResolved(kept)
    requires forall i :: 0 <= i < |segs| ==> segs[i].name != "." && segs[i].name != ".."
    ensures RemoveDots(segs, kept) == kept + segs
    decreases |segs|
  {
    if segs != [] {
      var k := kept + [segs[0]];
      assert DotsResolved(k) by {
        forall i, j | 0 <= i < j < |k| && k[j].name == ".."
          ensures k[i].name == ".."
        {
          assert j < |kept| && k[i] == kept[i] && k[j] == kept[j];
        }
      }
      RemoveDotsNone(segs[1..], k);
      assert k + segs[1..] == kept + segs;
    }
  }

  lemma JoinCons(g: Segment, rest: seq<Segment>)
    requires IsName(g.name) && forall i :: 0 <= i < |rest| ==> IsName(rest[i].name)
    ensures Join([g] + rest) == g.name + (if g.slashAfter then "/" else "") + Join(rest)
  {
    assert ([g] + rest)[1..] == rest;
  }

  /** Joining the segments of a path, after one leading '/' when it has
      one, gives the path with its slash runs collapsed. */
  lemma {:induction false} JoinSegments(x: string)
    ensures (if x != [] && x[0] == '/' then "/" else "") + Join(Segments(x)) == Collapse(x)
    decreases |x|
  {
    if x != [] && x[0] == '/' {
      var y := x[1..];
      JoinSegments(y);
      assert x == "/" + y;
      SlashCons(y);
    } else if x != [] {
      var n := IndexOf(x, '/');
      JoinSegments(x[n..]);
      JoinName(x, n);
    }
  }

  /** The step of JoinSegments for a path that starts with a name. */
  lemma JoinName(x: string, n: nat)
    requires x != [] && x[0] != '/' && n == IndexOf(x, '/')
    requires (if n < |x| then "/" else "") + Join(Segments(x[n..])) == Collapse(x[n..])
    ensures Join(Segments(x)) == Collapse(x)
  {
    var a := x[..n];
    var rest := Segments(x[n..]);
    SegmentsOfName(x, n);
    JoinCons(Segment(a, n < |x|), rest);
    NameFixed(a);
    JoinNameTail(x, n, a, if n < |x| then "/" else "", Join(rest));
  }

  lemma JoinNameTail(x: string, n: nat, a: string, sep: string, j: string)
    requires n <= |x| && a == x[..n] && a != [] && a[|a| - 1] != '/' && Collapse(a) == a
    requires sep == (if n < |x| then "/" else "") && sep + j == Collapse(x[n..])
    ensures a + sep + j == Collapse(x)
  {
    ConcatAssoc(a, sep, j);
    if n == |x| {
      assert x[n..] == [] && a == x;
    } else {
      JoinNameSlash(x, n, a);
    }
  }

  lemma SegmentsOfName(x: string, n: nat)
    requires x != [] && x[0] != '/' && n == IndexOf(x, '/')
    ensures IsName(x[..n])
    ensures Segments(x) == [Segment(x[..n], n < |x|)] + Segments(x[n..])
  {
  }

  /** A name collapses to itself. */
  lemma NameFixed(a: string)
    requires IsName(a)
    ensures Collapse(a) == a && a[|a| - 1] != '/'
  {
    CollapseFixed(a);
  }

  lemma JoinNameSlash(x: string, n: nat, a: string)
    requires n < |x| && a == x[..n] && a != [] && a[|a| - 1] != '/' && Collapse(a) == a
    ensures Collapse(x) == a + Collapse(x[n..])
  {
    CollapseAppend(a, x[n..]);
    assert x == a + x[n..];
  }

  /** For a path without '.', `URI.normalize` only collapses slash runs. */
  lemma UriNormalizeNoDots(x: string)
    requires '.' !in x
    ensures UriNormalize(x) == Collapse(x)
  {
    var segs := Segments(x);
    forall i | 0 <= i < |segs|
      ensures segs[i].name != "." && segs[i].name != ".."
    {
      assert '.' !in segs[i].name;
    }
    RemoveDotsNone(segs, []);
    assert [] + segs == segs;
    JoinSegments(x);
  }

  /** For a component without '.', Hadoop's and `java.net.URI`'s
      normalisations lead where collapsing slash runs does. */
  lemma NormalizationsAgree(x: string)
    requires '.' !in x
    ensures NormalizePath(UriNormalize(TrimTrailingSlash(ReplaceDoubleSlash(x)))) == NormalizePath(x)
  {
    var r := ReplaceDoubleSlash(x);
    var t := TrimTrailingSlash(r);
    assert '.' !in t by {
      if t != r {
        assert forall c :: c in t ==> c in r;
      }
    }
    UriNormalizeNoDots(t);
    CollapseFixed(Collapse(t));
    TrimThenCollapse(r);
    ReplaceKeepsLocation(x);
  }

  /** For a path component without '.', the path `new Path(s)` builds
      resolves to the location `MakePath(s)`. */
  lemma NewPathAgrees(s: string)
    requires s != [] && '.' !in s[PathStart(s)..]
    ensures Resolve(NewPath(s)) == MakePath(s)
  {
    NormalizationsAgree(s[PathStart(s)..]);
  }

  lemma NoDoubleSlashTail(q: string)
    requires NoDoubleSlash(q) && q != []
    ensures NoDoubleSlash(q[1..])
  {
    forall i | 0 <= i < |q[1..]| - 1
      ensures !(q[1..][i] == '/' && q[1..][i + 1] == '/')
    {
      assert q[1..][i] == q[i + 1] && q[1..][i + 1] == q[i + 2];
    }
  }

  /** The replace pass goes through a component without "//" that does
      not end in '/' unchanged, and carries on after it. */
  lemma {:induction false} ReplaceAfterNormal(q: string, w: string)
    requires NoDoubleSlash(q) && q != [] && q[|q| - 1] != '/'
    ensures ReplaceDoubleSlash(q + w) == q + ReplaceDoubleSlash(w)
    decreases |q|
  {
    var x := q + w;
    if |q| == 1 {
      if w == [] {
        assert x == q;
      } else {
        assert |x| >= 2 && x[0] == q[0] && x[1..] == w && q == [x[0]];
        assert ReplaceDoubleSlash(x) == [x[0]] + ReplaceDoubleSlash(x[1..]);
      }
    } else {
      assert x[0] == q[0] && x[1] == q[1] && !(q[0] == '/' && q[1] == '/');
      assert x[1..] == q[1..] + w;
      assert ReplaceDoubleSlash(x) == [x[0]] + ReplaceDoubleSlash(x[1..]);
      NoDoubleSlashTail(q);
      ReplaceAfterNormal(q[1..], w);
      assert q == [q[0]] + q[1..];
      ConcatAssoc([q[0]], q[1..], ReplaceDoubleSlash(w));
    }
  }

  lemma SlashAfterNormal(q: string)
    requires NoDoubleSlash(q) && q != [] && q[|q| - 1] != '/'
    ensures NoDoubleSlash(q + "/")
  {
    var x := q + "/";
    forall i | 0 <= i < |x| - 1
      ensures !(x[i] == '/' && x[i + 1] == '/')
    {
      assert x[i] == q[i];
      if i + 1 < |q| {
        assert x[i + 1] == q[i + 1];
      }
    }
  }

  /** `new Path` of a chroot's text followed by a '/'-led tail: the
      chroot's scheme and authority, and its path component with the tail
      through both normalisations. */
  lemma NewPathAfterChroot(c: Path, w: string)
    requires IsChroot(c) && w != [] && w[0] == '/'
    ensures Text(c) + w != []
    ensures NewPath(Text(c) + w) == Path(c.prefix, UriNormalize(TrimTrailingSlash(ReplaceDoubleSlash(c.path + w))))
  {
    var t := Text(c) + w;
    PathStartStable(Text(c), w);
    ConcatAssoc(c.prefix, c.path, w);
    assert t == c.prefix + (c.path + w);
    assert PathStart(t) == |c.prefix|;
    assert t[|c.prefix|..] == c.path + w;
  }

  /** `new Path` keeps a bare folder name without ':' and '.' as it is. */
  lemma NewPathOfName(u: string)
    requires IsName(u) && ':' !in u && '.' !in u
    ensures NewPath(u) == Path("", u)
  {
    RelativeName(u);
    assert u[PathStart(u)..] == u;
    NameKept(u);
  }

  lemma NameKept(u: string)
    requires IsName(u) && '.' !in u
    ensures UriNormalize(TrimTrailingSlash(ReplaceDoubleSlash(u))) == u
  {
    assert NoDoubleSlash(u);
    assert TrimTrailingSlash(u) == u;
    UriNormalizeNoDots(u);
    CollapseFixed(u);
  }

  /** A chroot is already a resolved location. */
  lemma ChrootResolves(c: Path)
    requires IsChroot(c)
    ensures Resolve(c) == c
  {
    ChrootNormal(c);
    NormalFixed(c.path);
  }

  /** A single '/' after a component without "//" and without '.' is
      trimmed away again. */
  lemma SlashAppended(q: string)
    requires NoDoubleSlash(q) && q != [] && q[|q| - 1] != '/' && '.' !in q
    ensures UriNormalize(TrimTrailingSlash(ReplaceDoubleSlash(q + "/"))) == q
  {
    SlashAfterNormal(q);
    SlashTail(q);
  }

  /** "//" after such a component becomes one '/' in the replace pass and
      is then trimmed away. */
  lemma DoubleSlashAppended(q: string)
    requires NoDoubleSlash(q) && q != [] && q[|q| - 1] != '/' && '.' !in q
    ensures UriNormalize(TrimTrailingSlash(ReplaceDoubleSlash(q + "//"))) == q
  {
    DoubleSlashReplaced(q);
    SlashTail(q);
  }

  /** The ids "" and "/" after a component without "//" and without '.':
      the component comes back unchanged. */
  lemma ShortSlashesAppended(q: string, x: string)
    requires NoDoubleSlash(q) && q != [] && q[|q| - 1] != '/' && '.' !in q
    requires AllSlashes(x) && |x| < 2
    ensures UriNormalize(TrimTrailingSlash(ReplaceDoubleSlash(q + "/" + x))) == q
  {
    if x == [] {
      assert q + "/" + x == q + "/";
      SlashAppended(q);
    } else {
      assert q + "/" + x == q + "//" by {
        assert x == "/";
      }
      DoubleSlashAppended(q);
    }
  }

  lemma DoubleSlashReplaced(q: string)
    requires NoDoubleSlash(q) && q != [] && q[|q| - 1] != '/'
    ensures ReplaceDoubleSlash(q + "//") == q + "/"
  {
    var w := "//";
    ReplaceAfterNormal(q, w);
    TwoSlashes();
  }

  lemma TwoSlashes()
    ensures ReplaceDoubleSlash("//") == "/"
  {
    var x := "//";
    assert x[2..] == [];
    assert ReplaceDoubleSlash(x) == "/" + ReplaceDoubleSlash(x[2..]);
  }

  lemma SlashTail(q: string)
    requires NoDoubleSlash(q) && q != [] && '.' !in q
    ensures UriNormalize(TrimTrailingSlash(q + "/")) == q
  {
    var y := q + "/";
    assert y[..|y| - 1] == q;
    UriNormalizeNoDots(q);
    CollapseFixed(q);
  }

  /** `new Path` of a component without "//" and without '.' followed by
      "///": one "//" survives the single replace pass and the trailing
      '/' of the other survives the trim. */
  lemma SlashesAppended(q: string)
    requires NoDoubleSlash(q) && q != [] && q[|q| - 1] != '/' && '.' !in q
    ensures UriNormalize(TrimTrailingSlash(ReplaceDoubleSlash(q + "/" + "//"))) == q + "/"
  {
    SlashesReplaced(q);
    SlashAfterNormal(q);
    UriNormalizeNoDots(q + "/");
    CollapseFixed(q + "/");
  }

  lemma SlashesReplaced(q: string)
    requires NoDoubleSlash(q) && q != [] && q[|q| - 1] != '/'
    ensures TrimTrailingSlash(ReplaceDoubleSlash(q + "/" + "//")) == q + "/"
  {
    SlashRunReplaced(q);
    SlashTrimmed(q);
  }

  lemma SlashRunReplaced(q: string)
    requires NoDoubleSlash(q) && q != [] && q[|q| - 1] != '/'
    ensures ReplaceDoubleSlash(q + "/" + "//") == q + "//"
  {
    var w := "///";
    assert q + "/" + "//" == q + w;
    ReplaceAfterNormal(q, w);
    ThreeSlashes();
  }

  lemma SlashTrimmed(q: string)
    ensures TrimTrailingSlash(q + "//") == q + "/"
  {
    var y := q + "//";
    assert y[..|y| - 1] == q + "/";
  }

  lemma ThreeSlashes()
    ensures ReplaceDoubleSlash("///") == "//"
  {
    var x := "///";
    assert x[2..] == "/";
    assert ReplaceDoubleSlash(x) == "/" + ReplaceDoubleSlash(x[2..]);
  }

  /** `new Path` of "/u/v" followed by "/..": the ".." takes back "v" but
      not the '/' after "u". */
  lemma DotDotAppended(q: string, u: string, v: string)
    requires IsName(u) && IsName(v) && '.' !in u && '.' !in v
    requires q == "/" + u + "/" + v && NoDoubleSlash(q) && q[|q| - 1] != '/'
    ensures UriNormalize(TrimTrailingSlash(ReplaceDoubleSlash(q + "/" + ".."))) == "/" + u + "/"
  {
    var x := q + "/" + "..";
    assert x == q + "/..";
    ReplaceAfterNormal(q, "/..");
    DotDotKept();
    assert x[|x| - 1] == '.';
    DotDotNormalize(u, v);
  }

  lemma DotDotKept()
    ensures ReplaceDoubleSlash("/..") == "/.."
  {
    var x := "/..";
    assert x[1] == '.' && x[2] == '.';
    assert NoDoubleSlash(x);
  }

  /** A trailing '/' does not change the location a path resolves to. */
  lemma TrailingSlashResolves(pre: string, p: string)
    requires IsNormal(p) && p != [] && p[|p| - 1] != '/'
    ensures Resolve(Path(pre, p + "/")) == Path(pre, p)
  {
    CollapseAppend(p, "/");
    CollapseFixed(p);
    assert (p + "/")[..|p|] == p;
  }

  lemma SkipSlash(y: string)
    ensures Segments("/" + y) == Segments(y)
  {
    assert ("/" + y)[1..] == y;
  }

  lemma NameSegment(u: string, rest: string)
    requires IsName(u) && rest != [] && rest[0] == '/'
    ensures Segments(u + rest) == [Segment(u, true)] + Segments(rest)
  {
    var x := u + rest;
    IndexOfExact(x, '/', |u|);
    assert x[..|u|] == u && x[|u|..] == rest;
    SegmentsOfName(x, |u|);
  }

  lemma LastSegment(x: string)
    requires IsName(x)
    ensures Segments(x) == [Segment(x, false)]
  {
    SegmentsOfName(x, |x|);
    assert x[..|x|] == x && x[|x|..] == [];
  }

  /** ".." after two names cancels the second and keeps the '/' after the
      first: "/u/v/.." becomes "/u/". */
  lemma DotDotNormalize(u: string, v: string)
    requires IsName(u) && IsName(v) && '.' !in u && '.' !in v
    ensures UriNormalize("/" + u + "/" + v + "/..") == "/" + u + "/"
  {
    var a, b, d := Segment(u, true), Segment(v, true), Segment("..", false);
    var x := "/" + u + "/" + v + "/..";
    DotDotSegments(u, v);
    DotDotRemoved(a, b, d);
    JoinCons(a, []);
    assert [a] + [] == [a];
    assert UriNormalize(x) == "/" + Join([a]);
  }

  lemma DotDotSegments(u: string, v: string)
    requires IsName(u) && IsName(v)
    ensures Segments("/" + u + "/" + v + "/..") == [Segment(u, true), Segment(v, true), Segment("..", false)]
  {
    var y := v + "/..";
    DotDotTail(v);
    SkipSlash(y);
    NameSegment(u, "/" + y);
    SkipSlash(u + ("/" + y));
    DotDotText(u, v);
  }

  lemma DotDotText(u: string, v: string)
    ensures "/" + u + "/" + v + "/.." == "/" + (u + ("/" + (v + "/..")))
  {
  }

  lemma DotDotTail(v: string)
    requires IsName(v)
    ensures Segments(v + "/..") == [Segment(v, true), Segment("..", false)]
  {
    LastSegment("..");
    SkipSlash("..");
    assert "/" + ".." == "/..";
    NameSegment(v, "/..");
  }

  lemma DotDotRemoved(a: Segment, b: Segment, d: Segment)
    requires '.' !in a.name && '.' !in b.name && d == Segment("..", false)
    ensures RemoveDots([a, b, d], []) == [a]
  {
    assert '.' in "." && '.' in "..";
    KeptName(a, [b, d], []);
    assert [a, b, d][1..] == [b, d] && [] + [a] == [a];
    KeptName(b, [d], [a]);
    assert [b, d][1..] == [d] && [a] + [b] == [a, b];
    DotDotDrops(a, b, d);
  }

  /** A segment that is neither "." nor ".." is kept. */
  lemma KeptName(s: Segment, rest: seq<Segment>, kept: seq<Segment>)
    requires DotsResolved(kept) && s.name != "." && s.name != ".."
    requires forall i :: 0 <= i < |kept| ==> kept[i].name != ".."
    ensures DotsResolved(kept + [s])
    ensures RemoveDots([s] + rest, kept) == RemoveDots(rest, kept + [s])
  {
    assert ([s] + rest)[0] == s && ([s] + rest)[1..] == rest;
  }

  lemma DotDotDrops(a: Segment, b: Segment, d: Segment)
    requires a.name != "." && a.name != ".." && b.name != "." && b.name != ".."
    requires d == Segment("..", false)
    ensures RemoveDots([d], [a, b]) == [a]
  {
    assert [a, b][..1] == [a] && [d][1..] == [];
  }
}

=== FILE: hdfs_object_store.dfy ===
/** `HdfsObjectStore`: objects live under a chroot directory, one
    directory per object named by a random UUID, holding the content in
    the file `000000_1`. The object id is `<uuid>/000000_1`. */
module HdfsObjectStore {
  import opened Base
  import opened Strings
  import opened HadoopPath
  import opened HadoopUri
  import opened Uuid
  import opened FileSystem

  /** The name of the content file inside an object directory, with the
      separating '/'. */
  const SavedDatasetFileName := "/000000_1"

  datatype HdfsStore = HdfsStore(technicalUsers: seq<string>, chroot: Path)

  /** The constructor without technical users. */
  function NewStore(chroot: Path): (st: HdfsStore)
    ensures st.technicalUsers == [] && st.chroot == chroot
  {
    HdfsStore([], chroot)
  }

  /** A store whose chroot is a directory path below which objects can
      be addressed (see `IsChroot`). */
  predicate Valid(st: HdfsStore) {
    IsChroot(st.chroot)
  }

  /** `ObjectId.toString()` of an object directory named `dir`. */
  function ObjectIdText(dir: UuidText): string {
    dir + SavedDatasetFileName
  }

  /** `idToPath(id)`, and also `getPath(chrootPath, name)`: the location
      HDFS resolves the chroot text, '/', and `id` to, which for a valid store
      is `Child(chroot, id)` (IdToPathParses). */
  function IdToPath(st: HdfsStore, id: string): Path {
    Child(st.chroot, id)
  }

  /** `new Path(chrootPath + "/" + id)` is the path `IdToPath` names. */
  lemma IdToPathParses(st: HdfsStore, id: string)
    requires Valid(st)
    ensures MakePath(GetId(st) + "/" + id) == IdToPath(st, id)
  {
    ChildParse(st.chroot, id);
  }

  /** `idToPath(id)` exactly as written: `new Path` of the text of the
      chroot, '/', and the id. On a valid store and an id without '.' it
      resolves to `IdToPath` (AsWrittenResolvesToChild); on a root chroot
      without an authority it does not (RootChrootIdEscapes). */
  function IdToPathAsWritten(st: HdfsStore, id: string): Path {
    assert (Text(st.chroot) + "/" + id)[|Text(st.chroot)|] == '/';
    NewPath(Text(st.chroot) + "/" + id)
  }

  /** Where `IdToPathAsWritten` differs from `IdToPath` for a valid store,
      it differs only in spelling: both name the same HDFS location, as
      long as neither the chroot's path nor the id contains '.'. */
  lemma AsWrittenResolvesToChild(st: HdfsStore, id: string)
    requires Valid(st) && '.' !in st.chroot.path && '.' !in id
    ensures Resolve(IdToPathAsWritten(st, id)) == IdToPath(st, id)
  {
    AsWrittenComponent(st, id);
    assert '.' !in st.chroot.path + "/" + id;
    NormalizationsAgree(st.chroot.path + "/" + id);
  }

  /** The path `idToPath` builds on a valid store: the chroot's prefix,
      and the chroot's component, '/' and the id through both
      normalisations. */
  lemma AsWrittenComponent(st: HdfsStore, id: string)
    requires Valid(st)
    ensures IdToPathAsWritten(st, id)
      == Path(st.chroot.prefix, UriNormalize(TrimTrailingSlash(ReplaceDoubleSlash(st.chroot.path + "/" + id))))
  {
    ConcatAssoc(Text(st.chroot), "/", id);
    ConcatAssoc(st.chroot.path, "/", id);
    NewPathAfterChroot(st.chroot, "/" + id);
  }

  /** With the chroot "/", the id of a name is read as an authority: the
      path `idToPath` builds has an empty path component and lies outside
      the chroot, while the intended child "/<name>" lies inside it. */
  lemma RootChrootIdEscapes(u: string)
    requires IsName(u)
    ensures var st := NewStore(Path("", "/"));
      && IdToPathAsWritten(st, u) == Path("//" + u, [])
      && !InSubtree(IdToPathAsWritten(st, u), st.chroot)
      && IdToPath(st, u) == Path("", "/" + u)
      && InSubtree(IdToPath(st, u), st.chroot)
  {
    RootTextChild(u);
    var s := "" + "/" + "/" + u;
    assert s[PathStart(s)..] == [];
    ChildOfRoot("", u);
  }

  /** `idToDirectoryPath(id)`: as `IdToPath`, after dropping one trailing
      "/000000_1" from `id`. */
  function IdToDirectoryPath(st: HdfsStore, id: string): Path {
    IdToPath(st, RemoveEnd(id, SavedDatasetFileName))
  }

  /** `getContent(id)`: opens the file `id` names. */
  function GetContent(st: HdfsStore, fs: Fs, id: string): (r: Result<Bytes>)
    ensures r.Success? <==> IsFile(fs, IdToPath(st, id))
    ensures r.Success? ==> r.value == fs[IdToPath(st, id)].content
    ensures r.Failure? ==> r.error == FileNotFound
  {
    Open(fs, IdToPath(st, id))
  }

  /** `getId()`: the text of the chroot path. */
  function GetId(st: HdfsStore): (r: string)
    ensures Valid(st) ==> r != [] && MakePath(r) == st.chroot
  {
    Text(st.chroot)
  }

  /** `remove(id)` with its guard corrected to compare locations: refuses
      an id that resolves to the chroot itself; otherwise deletes the
      resolved directory with everything below it, or raises
      NoSuchElementException when it does not exist. The guard as written
      compares the unresolved Path (`RemoveAsWritten`). */
  function Remove(st: HdfsStore, fs: Fs, id: string): (r: (Result<()>, Fs))
    ensures r.0.Failure? ==> r.1 == fs
    ensures r.0.Failure? ==> r.0.error == (if IdToDirectoryPath(st, id) == st.chroot then IllegalArgument else NoSuchElement)
    ensures r.0.Success? <==> IdToDirectoryPath(st, id) != st.chroot && IdToDirectoryPath(st, id) in fs
    ensures r.0.Success? ==> forall q :: q in r.1 <==> q in fs && !InSubtree(q, IdToDirectoryPath(st, id))
    ensures r.0.Success? ==> forall q :: q in r.1 ==> r.1[q] == fs[q]
  {
    var path := IdToDirectoryPath(st, id);
    if path == st.chroot then (Failure(IllegalArgument), fs)
    else if path in fs then (Success(()), Delete(fs, path))
    else (Failure(NoSuchElement), fs)
  }

  /** `createNewObjectDir()`, given the object's file path `file` and
      directory path `dirPath`: removes a path left at the file, then
      creates the directory. */
  function CreateNewObjectDir(fs: Fs, file: Path, dirPath: Path): (r: (Result<()>, Fs))
    ensures r.0.Failure? ==> r.0.error == IoFailure
  {
    var fs1 := if file in fs then Delete(fs, file) else fs;
    match Mkdirs(fs1, dirPath)
    case Failure(e) => (Failure(e), fs1)
    case Success(fs2) => (Success(()), fs2)
  }

  /** `setAClsForTechnicalUsers()` on the directory `dirPath`: adds
      READ_EXECUTE access entries, then READ_EXECUTE default entries, for
      every technical user. */
  function SetAcls(fs: Fs, dirPath: Path, users: seq<string>): (r: (Result<()>, Fs))
    ensures r.0.Failure? ==> r.0.error == FileNotFound && r.1 == fs
  {
    match ModifyAcl(fs, dirPath, UserAcl(users, Access, ReadExecute))
    case Failure(e) => (Failure(e), fs)
    case Success(fs1) =>
      match ModifyAcl(fs1, dirPath, UserAcl(users, Default, ReadExecute))
      case Failure(e) => (Failure(e), fs1)
      case Success(fs2) => (Success(()), fs2)
  }

  /** Copying the stream into a newly created file: the bytes the stream
      yields are written; a read failure leaves them written and raises an
      IOException. */
  function WriteContent(fs: Fs, file: Path, input: Stream): (r: (Result<()>, Fs))
    ensures input.broken ==> r.0.Failure?
  {
    match Create(fs, file, input.bytes)
    case Failure(e) => (Failure(e), fs)
    case Success(fs1) => if input.broken then (Failure(IoFailure), fs1) else (Success(()), fs1)
  }

  /** `saveObject(input)` once the paths are known: each failing step ends
      the operation with the effects of the steps before it. */
  function SaveObject(fs: Fs, file: Path, dirPath: Path, aclPath: Path, users: seq<string>, input: Stream): (r: (Result<()>, Fs))
    ensures input.broken ==> r.0.Failure?
  {
    var a := CreateNewObjectDir(fs, file, dirPath);
    if a.0.Failure? then a
    else
      var b := SetAcls(a.1, aclPath, users);
      if b.0.Failure? then b
      else WriteContent(b.1, file, input)
  }

  /** `save(input)` with the random UUID `dir` passed in: the object's file
      is `idToPath(id)`, its directory `idToDirectoryPath(id)`, the ACLs go
      on `getPath(chrootPath, dir)`, and the id is returned. */
  function Save(st: HdfsStore, fs: Fs, dir: UuidText, input: Stream): (r: (Result<string>, Fs))
    ensures r.0.Success? ==> r.0.value == ObjectIdText(dir)
    ensures input.broken ==> r.0.Failure?
  {
    var id := ObjectIdText(dir);
    var s := SaveObject(fs, IdToPath(st, id), IdToDirectoryPath(st, id), IdToPath(st, dir), st.technicalUsers, input);
    (if s.0.Success? then Success(id) else Failure(s.0.error), s.1)
  }

  // ------------------------------------------------------ object layout

  /** The id names the object directory followed by the content file. */
  lemma ObjectIdShape(dir: UuidText)
    ensures EndsWith(ObjectIdText(dir), "000000_1")
    ensures RemoveEnd(ObjectIdText(dir), SavedDatasetFileName) == dir
    ensures ObjectIdText(dir) == dir + "/" + "000000_1"
  {
    var id := ObjectIdText(dir);
    assert id[|id| - 8..] == "000000_1";
    RemoveEndAppended(dir, SavedDatasetFileName);
  }

  lemma DataFileName()
    ensures IsName("000000_1")
  {
  }

  /** Where an object lives: its directory is the chroot path extended by
      the directory name, and its file, which both `idToPath(id)` and the
      directory part `idToDirectoryPath(id)` lead to, lies inside it. */
  lemma ObjectPaths(st: HdfsStore, dir: UuidText)
    requires Valid(st)
    ensures IdToPath(st, dir) == Path(st.chroot.prefix, st.chroot.path + "/" + dir)
    ensures IdToDirectoryPath(st, ObjectIdText(dir)) == IdToPath(st, dir)
    ensures IdToPath(st, ObjectIdText(dir)) == Path(st.chroot.prefix, st.chroot.path + "/" + dir + "/" + "000000_1")
  {
    var c := st.chroot;
    UuidChars(dir);
    assert IsName(dir);
    DataFileName();
    ObjectIdShape(dir);
    ChildOfName(c, dir);
    ChildOfTwoNames(c, dir, "000000_1");
  }

  /** How the object's paths relate: the directories above the file are
      the object directory and the directories above it, which are the
      chroot and the directories above the chroot; deleting the file's
      subtree touches none of them. */
  lemma ObjectPathRelations(pre: string, q: string, dir: UuidText)
    requires q != []
    ensures var c, d, f := Path(pre, q), Path(pre, q + "/" + dir), Path(pre, q + "/" + dir + "/" + "000000_1");
      && Ancestors(d) == DirsFor(c)
      && Ancestors(f) == DirsFor(d)
      && f !in DirsFor(d)
      && (forall x :: x in DirsFor(d) ==> !InSubtree(x, f))
      && InSubtree(f, d) && f != d && InSubtree(d, c) && d != c
  {
    var c, d, f := Path(pre, q), Path(pre, q + "/" + dir), Path(pre, q + "/" + dir + "/" + "000000_1");
    UuidChars(dir);
    assert IsName(dir);
    assert IsName("000000_1");
    AncestorsOfChild(pre, q, dir);
    AncestorsOfChild(pre, q + "/" + dir, "000000_1");
    forall x | x in DirsFor(d)
      ensures |x.path| < |f.path|
    {
      if x != d {
        AncestorNotBelow(d, x);
      }
    }
    assert StartsWith(f.path, DirPrefix(d.path)) by {
      assert f.path[..|d.path| + 1] == d.path + "/";
    }
    assert StartsWith(d.path, DirPrefix(c.path)) by {
      if q[|q| - 1] == '/' {
        assert d.path[..|q|] == q;
      } else {
        assert d.path[..|q| + 1] == q + "/";
      }
    }
  }

  // ---------------------------------------------------- save, per step

  /** How an object's file `f` and directory `d` relate: the directories
      above `f` are `d` and those above `d`, and deleting `f`'s subtree
      touches none of them. */
  predicate ObjectLayout(f: Path, d: Path) {
    && Ancestors(f) == DirsFor(d)
    && f !in DirsFor(d)
    && forall x :: x in DirsFor(d) ==> !InSubtree(x, f)
  }

  /** The ACL `save` leaves on an object directory that had `before`. */
  function GrantedAcl(users: seq<string>, before: Acl): Acl {
    before + UserAcl(users, Access, ReadExecute) + UserAcl(users, Default, ReadExecute)
  }

  /** The granted ACL gives every technical user READ_EXECUTE as an access
      and as a default entry, keeps the other entries it had, and adds
      nothing else; with no technical users it changes nothing. */
  lemma GrantedAclEntries(users: seq<string>, before: Acl)
    ensures var g := GrantedAcl(users, before);
      && (forall u :: u in users ==> AclKey(Access, u) in g && g[AclKey(Access, u)] == ReadExecute)
      && (forall u :: u in users ==> AclKey(Default, u) in g && g[AclKey(Default, u)] == ReadExecute)
      && (forall k :: k in g <==> k in before || k.user in users)
      && (forall k :: k in before && k.user !in users ==> g[k] == before[k])
      && (users == [] ==> g == before)
  {
    var g := GrantedAcl(users, before);
    forall k | k in g
      ensures k in before || k.user in users
    {
    }
    if users == [] {
      assert UserAcl(users, Access, ReadExecute) == map[];
      assert UserAcl(users, Default, ReadExecute) == map[];
      assert g.Keys == before.Keys;
    }
  }

  lemma CreateNewObjectDirEffect(fs: Fs, f: Path, d: Path)
    requires ObjectLayout(f, d)
    ensures var r := CreateNewObjectDir(fs, f, d);
      && (r.0.Success? <==> NoFileOn(fs, d))
      && (forall x :: x in fs && !InSubtree(x, f) ==> x in r.1 && r.1[x] == fs[x])
      && (forall x :: x in r.1 ==> x in fs || (x in DirsFor(d) && r.1[x] == Directory(map[])))
      && f !in r.1
      && (r.0.Success? ==> forall x :: x in DirsFor(d) ==> IsDir(r.1, x))
  {
    var fs1 := if f in fs then Delete(fs, f) else fs;
    assert f !in fs1;
    assert forall x :: x in fs && !InSubtree(x, f) ==> x in fs1 && fs1[x] == fs[x];
    assert forall x :: x in fs1 ==> x in fs;
    assert NoFileOn(fs1, d) <==> NoFileOn(fs, d);
  }

  lemma SetAclsEffect(fs: Fs, d: Path, users: seq<string>)
    requires IsDir(fs, d)
    ensures var r := SetAcls(fs, d, users);
      r.0.Success? && r.1 == fs[d := Directory(GrantedAcl(users, fs[d].acl))]
  {
  }

  /** The state `saveObject` leaves on an object layout, step by step:
      what the directory step left when it fails, and otherwise that state
      with the granted ACL on the directory and the file written. */
  lemma SaveObjectState(fs: Fs, f: Path, d: Path, users: seq<string>, input: Stream)
    requires ObjectLayout(f, d)
    ensures var a := CreateNewObjectDir(fs, f, d);
      && (a.0.Failure? ==> SaveObject(fs, f, d, d, users, input) == (a.0, a.1))
      && (a.0.Success? ==>
           && d in a.1
           && SaveObject(fs, f, d, d, users, input) ==
                (if input.broken then Failure(IoFailure) else Success(()),
                 a.1[d := Directory(GrantedAcl(users, a.1[d].acl))][f := File(input.bytes, map[])]))
  {
    CreateNewObjectDirEffect(fs, f, d);
    var a := CreateNewObjectDir(fs, f, d);
    if a.0.Success? {
      SetAclsEffect(a.1, d, users);
      var b := SetAcls(a.1, d, users);
      CreateInExistingDir(b.1, f, input.bytes);
    }
  }

  /** What `saveObject` produces on an object layout: it succeeds exactly
      when no file blocks the object directory and the stream reads to its
      end; whenever the directory could be made, the file holds the bytes
      read and the directory carries the granted ACL entries. */
  lemma SaveObjectOutcome(fs: Fs, f: Path, d: Path, users: seq<string>, input: Stream)
    requires ObjectLayout(f, d)
    ensures var r := SaveObject(fs, f, d, d, users, input);
      && (r.0.Success? <==> NoFileOn(fs, d) && !input.broken)
      && (r.0.Failure? ==> r.0.error == IoFailure)
      && (NoFileOn(fs, d) ==>
           && f in r.1 && r.1[f] == File(input.bytes, map[])
           && d in r.1 && r.1[d] == Directory(GrantedAcl(users, if d in fs then fs[d].acl else map[]))
           && forall x :: x in DirsFor(d) ==> IsDir(r.1, x))
  {
    CreateNewObjectDirEffect(fs, f, d);
    SaveObjectState(fs, f, d, users, input);
    var a := CreateNewObjectDir(fs, f, d);
    if a.0.Success? {
      assert d in fs ==> a.1[d] == fs[d];
    }
  }

  /** What else `saveObject` touches: apart from the object directory and
      the file's subtree, existing paths keep their nodes, and the only new
      paths are the file and the directories above it, created without ACL
      entries. */
  lemma SaveObjectFrame(fs: Fs, f: Path, d: Path, users: seq<string>, input: Stream)
    requires ObjectLayout(f, d)
    ensures var r := SaveObject(fs, f, d, d, users, input);
      && (forall x :: x in fs && x != d && !InSubtree(x, f) ==> x in r.1 && r.1[x] == fs[x])
      && (forall x :: x in r.1 && x !in fs ==> x == f || x in DirsFor(d))
      && (forall x :: x in r.1 && x !in fs && x != f && x != d ==> r.1[x] == Directory(map[]))
  {
    CreateNewObjectDirEffect(fs, f, d);
    SaveObjectState(fs, f, d, users, input);
    var a := CreateNewObjectDir(fs, f, d);
    if a.0.Success? {
      UpdateFrame(fs, a.1, SaveObject(fs, f, d, d, users, input).1, f, d, DirsFor(d),
                  Directory(GrantedAcl(users, a.1[d].acl)), File(input.bytes, map[]));
    }
  }

  /** Map bookkeeping for `SaveObjectFrame`: a state that kept everything
      outside `f`'s subtree and added only empty directories in `dirs`,
      then updated at `d` and `f`. */
  lemma UpdateFrame(fs: Fs, a: Fs, r: Fs, f: Path, d: Path, dirs: set<Path>, nd: Node, nf: Node)
    requires forall x :: x in fs && !InSubtree(x, f) ==> x in a && a[x] == fs[x]
    requires forall x :: x in a ==> x in fs || (x in dirs && a[x] == Directory(map[]))
    requires r == a[d := nd][f := nf]
    ensures forall x :: x in fs && x != d && !InSubtree(x, f) ==> x in r && r[x] == fs[x]
    ensures forall x :: x in r && x !in fs ==> x == f || x == d || x in dirs
    ensures forall x :: x in r && x !in fs && x != f && x != d ==> r[x] == Directory(map[])
  {
    assert InSubtree(f, f);
  }

  /** The object paths of a valid store, in the terms `save` and
      `remove` use. */
  lemma Layout(st: HdfsStore, dir: UuidText)
    requires Valid(st)
    ensures var c, d, f := st.chroot, IdToPath(st, dir), IdToPath(st, ObjectIdText(dir));
      && IdToDirectoryPath(st, ObjectIdText(dir)) == d
      && ObjectLayout(f, d)
      && Ancestors(d) == DirsFor(c)
      && InSubtree(f, d) && f != d && InSubtree(d, c) && d != c
  {
    ObjectPaths(st, dir);
    ChrootNormal(st.chroot);
    ObjectPathRelations(st.chroot.prefix, st.chroot.path, dir);
  }

  // --------------------------------------------------------------- save

  /** `save` returns the id `<dir>/000000_1` exactly when no file blocks
      the object directory and the stream reads to its end. */
  lemma SaveSucceedsIff(st: HdfsStore, fs: Fs, dir: UuidText, input: Stream)
    requires Valid(st)
    ensures var r := Save(st, fs, dir, input);
      && (r.0.Success? <==> NoFileOn(fs, IdToPath(st, dir)) && !input.broken)
      && (r.0.Success? ==> r.0.value == ObjectIdText(dir) && EndsWith(r.0.value, "000000_1"))
      && (r.0.Failure? ==> r.0.error == IoFailure)
  {
    Layout(st, dir);
    ObjectIdShape(dir);
    SaveObjectOutcome(fs, IdToPath(st, ObjectIdText(dir)), IdToPath(st, dir), st.technicalUsers, input);
  }

  /** Reading back: once the object directory could be made, `getContent`
      of the returned id yields exactly the bytes the stream delivered. */
  lemma SaveThenGetContent(st: HdfsStore, fs: Fs, dir: UuidText, input: Stream)
    requires Valid(st) && NoFileOn(fs, IdToPath(st, dir))
    ensures GetContent(st, Save(st, fs, dir, input).1, ObjectIdText(dir)) == Success(input.bytes)
  {
    Layout(st, dir);
    SaveObjectOutcome(fs, IdToPath(st, ObjectIdText(dir)), IdToPath(st, dir), st.technicalUsers, input);
  }

  /** The object directory ends up with the granted ACL on top of the
      entries it had (see GrantedAclEntries). */
  lemma SaveGrantsAcls(st: HdfsStore, fs: Fs, dir: UuidText, input: Stream)
    requires Valid(st) && NoFileOn(fs, IdToPath(st, dir))
    ensures var fs', d := Save(st, fs, dir, input).1, IdToPath(st, dir);
      IsDir(fs', d) && fs'[d].acl == GrantedAcl(st.technicalUsers, if d in fs then fs[d].acl else map[])
  {
    Layout(st, dir);
    SaveObjectOutcome(fs, IdToPath(st, ObjectIdText(dir)), IdToPath(st, dir), st.technicalUsers, input);
  }

  /** Nothing outside the new object changes: existing paths other than
      the object directory and the file's subtree keep their nodes, with
      their ACLs; the only new paths are the file and the directories above
      it, and those other than the object directory and the file are empty
      directories without ACL entries. */
  lemma SaveFrame(st: HdfsStore, fs: Fs, dir: UuidText, input: Stream)
    requires Valid(st)
    ensures var fs', d, f := Save(st, fs, dir, input).1, IdToPath(st, dir), IdToPath(st, ObjectIdText(dir));
      && (forall x :: x in fs && x != d && !InSubtree(x, f) ==> x in fs' && fs'[x] == fs[x])
      && (forall x :: x in fs' && x !in fs ==> x == f || x in DirsFor(d))
      && (forall x :: x in fs' && x !in fs && x != f && x != d ==> fs'[x] == Directory(map[]))
  {
    Layout(st, dir);
    var d, f := IdToPath(st, dir), IdToPath(st, ObjectIdText(dir));
    assert Save(st, fs, dir, input).1 == SaveObject(fs, f, d, d, st.technicalUsers, input).1;
    SaveObjectFrame(fs, f, d, st.technicalUsers, input);
  }

  // ------------------------------------------------------------- remove

  /** `remove` refuses an id exactly when, once "/000000_1" is dropped, it
      is nothing but slashes (the empty string included), because exactly
      then it resolves to the chroot itself. */
  lemma RemoveRefusedIff(st: HdfsStore, fs: Fs, id: string)
    requires Valid(st)
    ensures Remove(st, fs, id).0 == Failure(IllegalArgument) <==> AllSlashes(RemoveEnd(id, SavedDatasetFileName))
  {
    ChildShape(st.chroot, RemoveEnd(id, SavedDatasetFileName));
  }

  /** The directory part of the id "/000000_1" is empty. */
  lemma RootIdDirectory()
    ensures RemoveEnd("/000000_1", SavedDatasetFileName) == []
  {
    RemoveEndAppended([], SavedDatasetFileName);
    assert [] + SavedDatasetFileName == "/000000_1";
  }

  /** The id "/000000_1" resolves to the chroot and is refused without
      touching the file system. */
  lemma RemoveRootIdRefused(st: HdfsStore, fs: Fs)
    requires Valid(st)
    ensures Remove(st, fs, "/000000_1") == (Failure(IllegalArgument), fs)
    ensures '.' !in st.chroot.path ==> RemoveAsWritten(st, fs, "/000000_1") == (Failure(IllegalArgument), fs)
  {
    RemoveEndAppended([], SavedDatasetFileName);
    assert [] + SavedDatasetFileName == "/000000_1";
    ChildShape(st.chroot, []);
    if '.' !in st.chroot.path {
      ShortIdAsWritten(st, []);
    }
  }

  /** An id with and without the trailing "/000000_1" removes the same
      directory. */
  lemma RemoveWithOrWithoutFileName(st: HdfsStore, fs: Fs, d: string)
    requires !EndsWith(d, SavedDatasetFileName)
    ensures Remove(st, fs, d + SavedDatasetFileName) == Remove(st, fs, d)
    ensures RemoveAsWritten(st, fs, d + SavedDatasetFileName) == RemoveAsWritten(st, fs, d)
  {
    RemoveEndAppended(d, SavedDatasetFileName);
  }

  /** `remove` never deletes the chroot or anything outside it: every path
      it drops lies strictly below the chroot, and the paths it keeps keep
      their nodes. */
  lemma RemoveStaysInChroot(st: HdfsStore, fs: Fs, id: string)
    requires Valid(st)
    ensures var r := Remove(st, fs, id);
      && (forall x :: x in fs && x !in r.1 ==> InSubtree(x, st.chroot) && x != st.chroot)
      && (forall x :: x in r.1 ==> x in fs && r.1[x] == fs[x])
  {
    var r := Remove(st, fs, id);
    var name := RemoveEnd(id, SavedDatasetFileName);
    ChildShape(st.chroot, name);
    if r.0.Success? {
      forall x | x in fs && x !in r.1
        ensures InSubtree(x, st.chroot) && x != st.chroot
      {
        ChildSubtreeInsideChroot(st.chroot, name, x);
      }
    }
  }

  // ------------------------------------------------- remove as written

  /** `remove(id)` exactly as written: the guard compares the path
      `new Path` builds with the chroot before HDFS resolves it, and HDFS
      then looks up and deletes the location that path resolves to. The
      corrected `Remove` compares the resolved location instead. */
  function RemoveAsWritten(st: HdfsStore, fs: Fs, id: string): (r: (Result<()>, Fs))
    ensures r.0.Failure? ==> r.1 == fs
    ensures var p := IdToPathAsWritten(st, RemoveEnd(id, SavedDatasetFileName));
      && (r.0 == Failure(IllegalArgument) <==> p == st.chroot)
      && (r.0.Success? <==> p != st.chroot && Resolve(p) in fs)
      && (r.0.Failure? && p != st.chroot ==> r.0.error == NoSuchElement)
      && (r.0.Success? ==> forall q :: q in r.1 <==> q in fs && !InSubtree(q, Resolve(p)))
  {
    var path := IdToPathAsWritten(st, RemoveEnd(id, SavedDatasetFileName));
    if path == st.chroot then (Failure(IllegalArgument), fs)
    else
      var location := Resolve(path);
      if location in fs then (Success(()), Delete(fs, location))
      else (Failure(NoSuchElement), fs)
  }

  /** On ordinary ids the guard as written and the corrected guard
      decide alike: for a chroot and an id without '.', and a directory
      part that is not a run of two or more '/', `remove` as written and
      the corrected `Remove` give the same outcome and the same file
      system. */
  lemma RemoveAsWrittenAgrees(st: HdfsStore, fs: Fs, id: string)
    requires Valid(st) && '.' !in st.chroot.path && '.' !in id
    requires var x := RemoveEnd(id, SavedDatasetFileName); !(AllSlashes(x) && |x| >= 2)
    ensures RemoveAsWritten(st, fs, id) == Remove(st, fs, id)
  {
    var x := RemoveEnd(id, SavedDatasetFileName);
    RemoveEndKeepsChars(id, SavedDatasetFileName);
    if AllSlashes(x) {
      ShortIdAgrees(st, fs, id, x);
    } else {
      NameIdAgrees(st, fs, id, x);
    }
  }

  lemma ShortIdAgrees(st: HdfsStore, fs: Fs, id: string, x: string)
    requires Valid(st) && '.' !in st.chroot.path
    requires x == RemoveEnd(id, SavedDatasetFileName) && AllSlashes(x) && |x| < 2
    ensures RemoveAsWritten(st, fs, id) == Remove(st, fs, id) == (Failure(IllegalArgument), fs)
  {
    ChildShape(st.chroot, x);
    ShortIdAsWritten(st, x);
  }

  lemma NameIdAgrees(st: HdfsStore, fs: Fs, id: string, x: string)
    requires Valid(st) && '.' !in st.chroot.path && '.' !in x
    requires x == RemoveEnd(id, SavedDatasetFileName) && !AllSlashes(x)
    ensures RemoveAsWritten(st, fs, id) == Remove(st, fs, id)
  {
    var c := st.chroot;
    ChildShape(c, x);
    assert IdToPath(st, x) != c;
    AsWrittenResolvesToChild(st, x);
    ChrootResolves(c);
    assert IdToPathAsWritten(st, x) != c;
  }

  /** The ids "" and "/" build the chroot itself. */
  lemma ShortIdAsWritten(st: HdfsStore, x: string)
    requires Valid(st) && '.' !in st.chroot.path && AllSlashes(x) && |x| < 2
    ensures IdToPathAsWritten(st, x) == st.chroot
  {
    AsWrittenComponent(st, x);
    ChrootNormal(st.chroot);
    ShortSlashesAppended(st.chroot.path, x);
  }

  /** `remove` as written, once the path it builds is known. */
  lemma RemoveAsWrittenAt(st: HdfsStore, fs: Fs, id: string, p: Path)
    requires IdToPathAsWritten(st, RemoveEnd(id, SavedDatasetFileName)) == p
    requires p != st.chroot && Resolve(p) in fs
    ensures RemoveAsWritten(st, fs, id) == (Success(()), Delete(fs, Resolve(p)))
  {
  }

  /** The single replace pass leaves "//" in the text "<chroot>///", so
      the id "//" builds the path "<chroot>/": not equal to the chroot, yet
      resolving to it. `remove` as written deletes the chroot and
      everything in it; the corrected `Remove` refuses the id. */
  lemma RemoveAsWrittenDeletesChroot(st: HdfsStore, fs: Fs)
    requires Valid(st) && '.' !in st.chroot.path && st.chroot in fs
    ensures IdToPathAsWritten(st, "//") == Path(st.chroot.prefix, st.chroot.path + "/") != st.chroot
    ensures var r := RemoveAsWritten(st, fs, "//");
      r.0 == Success(()) && forall x :: x in r.1 ==> !InSubtree(x, st.chroot)
    ensures Remove(st, fs, "//") == (Failure(IllegalArgument), fs)
  {
    var c := st.chroot;
    SlashesAsWritten(st);
    ShortIdKept("//");
    ChrootNormal(c);
    TrailingSlashResolves(c.prefix, c.path);
    RemoveAsWrittenAt(st, fs, "//", Path(c.prefix, c.path + "/"));
    SlashesRefused(st, fs);
  }

  lemma SlashesAsWritten(st: HdfsStore)
    requires Valid(st) && '.' !in st.chroot.path
    ensures IdToPathAsWritten(st, "//") == Path(st.chroot.prefix, st.chroot.path + "/")
  {
    AsWrittenComponent(st, "//");
    ChrootNormal(st.chroot);
    SlashesAppended(st.chroot.path);
  }

  lemma SlashesRefused(st: HdfsStore, fs: Fs)
    requires Valid(st)
    ensures Remove(st, fs, "//") == (Failure(IllegalArgument), fs)
  {
    ShortIdKept("//");
    ChildShape(st.chroot, "//");
  }

  /** An id shorter than "/000000_1" is taken whole. */
  lemma ShortIdKept(id: string)
    requires |id| < |SavedDatasetFileName|
    ensures RemoveEnd(id, SavedDatasetFileName) == id
  {
  }

  /** Under a chroot "/u/v", the id ".." builds the path "/u/": `remove`
      as written deletes the chroot's parent "/u" with the chroot and
      everything else in it. The corrected `Remove` takes ".." as a name
      below the chroot and keeps both the parent and the chroot. */
  lemma RemoveAsWrittenDeletesParent(st: HdfsStore, fs: Fs, u: string, v: string)
    requires Valid(st) && IsName(u) && IsName(v) && '.' !in u && '.' !in v
    requires st.chroot.path == "/" + u + "/" + v && Path(st.chroot.prefix, "/" + u) in fs
    ensures IdToPathAsWritten(st, "..") == Path(st.chroot.prefix, "/" + u + "/")
    ensures var r := RemoveAsWritten(st, fs, "..");
      r.0 == Success(()) && forall x :: x in r.1 ==> !InSubtree(x, Path(st.chroot.prefix, "/" + u))
    ensures var r := Remove(st, fs, "..");
      Path(st.chroot.prefix, "/" + u) in r.1 && (st.chroot in fs ==> st.chroot in r.1)
  {
    var pre := st.chroot.prefix;
    DotDotAsWritten(st, u, v);
    ShortIdKept("..");
    NameIsNormal(u);
    TrailingSlashResolves(pre, "/" + u);
    RemoveAsWrittenAt(st, fs, "..", Path(pre, "/" + u + "/"));
    ParentKept(st, fs, u, v);
  }

  /** The corrected `Remove` deletes nothing outside the chroot, so it
      keeps the chroot's parent, whatever the id. */
  lemma ParentKept(st: HdfsStore, fs: Fs, u: string, v: string)
    requires Valid(st) && st.chroot.path == "/" + u + "/" + v && Path(st.chroot.prefix, "/" + u) in fs
    ensures var r := Remove(st, fs, "..");
      Path(st.chroot.prefix, "/" + u) in r.1 && (st.chroot in fs ==> st.chroot in r.1)
  {
    RemoveStaysInChroot(st, fs, "..");
    assert !InSubtree(Path(st.chroot.prefix, "/" + u), st.chroot);
  }

  lemma DotDotAsWritten(st: HdfsStore, u: string, v: string)
    requires Valid(st) && IsName(u) && IsName(v) && '.' !in u && '.' !in v
    requires st.chroot.path == "/" + u + "/" + v
    ensures IdToPathAsWritten(st, "..") == Path(st.chroot.prefix, "/" + u + "/")
  {
    AsWrittenComponent(st, "..");
    ChrootNormal(st.chroot);
    DotDotAppended(st.chroot.path, u, v);
  }

  /** A saved object can be removed by its id; afterwards its content is
      gone and only the object directory's subtree has changed. */
  lemma SaveThenRemove(st: HdfsStore, fs: Fs, dir: UuidText, input: Stream)
    requires Valid(st) && NoFileOn(fs, IdToPath(st, dir))
    ensures var fs1 := Save(st, fs, dir, input).1;
      var r := Remove(st, fs1, ObjectIdText(dir));
      && r.0 == Success(())
      && GetContent(st, r.1, ObjectIdText(dir)) == Failure(FileNotFound)
      && (forall x :: x in r.1 <==> x in fs1 && !InSubtree(x, IdToPath(st, dir)))
      && ('.' !in st.chroot.path ==> RemoveAsWritten(st, fs1, ObjectIdText(dir)) == r)
  {
    Layout(st, dir);
    SaveObjectOutcome(fs, IdToPath(st, ObjectIdText(dir)), IdToPath(st, dir), st.technicalUsers, input);
    if '.' !in st.chroot.path {
      ObjectIdAgrees(st, Save(st, fs, dir, input).1, dir);
    }
  }

  /** An object id is an ordinary id: `remove` as written and the
      corrected `Remove` agree on it. */
  lemma ObjectIdAgrees(st: HdfsStore, fs: Fs, dir: UuidText)
    requires Valid(st) && '.' !in st.chroot.path
    ensures RemoveAsWritten(st, fs, ObjectIdText(dir)) == Remove(st, fs, ObjectIdText(dir))
  {
    UuidChars(dir);
    RemoveEndAppended(dir, SavedDatasetFileName);
    assert '.' !in SavedDatasetFileName;
    assert '.' !in ObjectIdText(dir);
    assert !AllSlashes(dir) by { assert dir[0] != '/'; }
    RemoveAsWrittenAgrees(st, fs, ObjectIdText(dir));
  }
}

=== FILE: id_with_timestamp.dfy ===
/** `IdWithTimestamp`: an id made of a name with its spaces replaced by '_',
    a '-', and the clock reading formatted as `yyMMdd-HHmmss`. The clock
    reading (calendar fields in the formatter's time zone) is a parameter. */
module IdWithTimestamp {
  import opened Decimal

  /** A reading of the wall clock, as `SimpleDateFormat` sees it. */
  datatype Clock = Clock(year: nat, month: nat, day: nat, hour: nat, minute: nat, second: nat)

  predicate ValidClock(c: Clock) {
    && 1 <= c.month <= 12
    && 1 <= c.day <= 31
    && c.hour < 24
    && c.minute < 60
    && c.second < 60
  }

  predicate IsSpaceOrUnderscore(c: char) {
    c == ' ' || c == '_'
  }

  /** `name.replaceAll(" ", "_")`. */
  function NormalizeName(name: string): (r: string)
    ensures |r| == |name|
    ensures forall i :: 0 <= i < |name| ==> r[i] == (if name[i] == ' ' then '_' else name[i])
  {
    if name == [] then []
    else [if name[0] == ' ' then '_' else name[0]] + NormalizeName(name[1..])
  }

  /** A two-digit, zero-padded field. */
  function Pad2(n: nat): (r: string)
    requires n < 100
  {
    [DigitChar(n / 10), DigitChar(n % 10)]
  }

  /** The value of the two digits at `i` and `i + 1`. */
  function Field(t: string, i: nat): (n: nat)
    requires i + 1 < |t| && IsDigit(t[i]) && IsDigit(t[i + 1])
    ensures n < 100
  {
    10 * DigitValue(t[i]) + DigitValue(t[i + 1])
  }

  /** `new SimpleDateFormat("yyMMdd-HHmmss").format(date)`: `yy` is the year
      modulo 100. */
  function Timestamp(c: Clock): (r: string)
    requires ValidClock(c)
  {
    Pad2(c.year % 100) + Pad2(c.month) + Pad2(c.day) + "-" + Pad2(c.hour) + Pad2(c.minute) + Pad2(c.second)
  }

  /** Six digits, '-', six digits. */
  predicate IsTimestampShape(t: string) {
    && |t| == 13
    && t[6] == '-'
    && forall i :: 0 <= i < 13 && i != 6 ==> IsDigit(t[i])
  }

  /** Reads the fields back from a timestamp; the century is lost. */
  function ParseTimestamp(t: string): (c: Clock)
    requires IsTimestampShape(t)
    ensures c.year < 100
  {
    Clock(Field(t, 0), Field(t, 2), Field(t, 4), Field(t, 7), Field(t, 9), Field(t, 11))
  }

  /** `IdWithTimestamp.generate(name).getId()` at clock reading `c`. */
  function Generate(name: string, c: Clock): (id: string)
    requires ValidClock(c)
  {
    NormalizeName(name) + "-" + Timestamp(c)
  }

  /** Splits an id into its name part and its timestamp part, as far as it
      is long enough to hold a '-' and a timestamp. */
  function SplitId(id: string): (r: (string, string))
    requires |id| >= 14
    ensures r.0 + "-" + r.1 == id <==> id[|id| - 14] == '-'
    ensures |r.1| == 13
  {
    (id[..|id| - 14], id[|id| - 13..])
  }

  // ------------------------------------------------------------- lemmas

  lemma Pad2Digits(n: nat)
    requires n < 100
    ensures |Pad2(n)| == 2 && IsDigit(Pad2(n)[0]) && IsDigit(Pad2(n)[1])
    ensures Field(Pad2(n), 0) == n
  {
  }

  /** A timestamp has the shape `yyMMdd-HHmmss`: 13 characters, six
      zero-padded digits, '-', six zero-padded digits. */
  lemma TimestampShape(c: Clock)
    requires ValidClock(c)
    ensures IsTimestampShape(Timestamp(c))
    ensures |Timestamp(c)| == 13
  {
    Pad2Digits(c.year % 100);
    Pad2Digits(c.month);
    Pad2Digits(c.day);
    Pad2Digits(c.hour);
    Pad2Digits(c.minute);
    Pad2Digits(c.second);
  }

  /** Parsing a timestamp gives back the clock reading, with the year
      reduced modulo 100. */
  lemma ParseOfTimestamp(c: Clock)
    requires ValidClock(c)
    ensures IsTimestampShape(Timestamp(c))
    ensures ParseTimestamp(Timestamp(c)) == c.(year := c.year % 100)
  {
    var t := Timestamp(c);
    TimestampShape(c);
    Pad2Digits(c.year % 100);
    Pad2Digits(c.month);
    Pad2Digits(c.day);
    Pad2Digits(c.hour);
    Pad2Digits(c.minute);
    Pad2Digits(c.second);
    TimestampPieces(Pad2(c.year % 100), Pad2(c.month), Pad2(c.day), Pad2(c.hour), Pad2(c.minute), Pad2(c.second));
    FieldOfPiece(t, 0);
    FieldOfPiece(t, 2);
    FieldOfPiece(t, 4);
    FieldOfPiece(t, 7);
    FieldOfPiece(t, 9);
    FieldOfPiece(t, 11);
  }

  /** Where the six two-character fields sit in a timestamp. */
  lemma TimestampPieces(a: string, b: string, c: string, d: string, e: string, f: string)
    requires |a| == 2 && |b| == 2 && |c| == 2 && |d| == 2 && |e| == 2 && |f| == 2
    ensures var t := a + b + c + "-" + d + e + f;
      && t[0..2] == a && t[2..4] == b && t[4..6] == c
      && t[7..9] == d && t[9..11] == e && t[11..13] == f
  {
  }

  lemma FieldOfPiece(t: string, i: nat)
    requires i + 1 < |t| && IsDigit(t[i]) && IsDigit(t[i + 1])
    ensures var p := t[i..i + 2]; IsDigit(p[0]) && IsDigit(p[1]) && Field(p, 0) == Field(t, i)
  {
  }

  lemma Pad2OfField(t: string, i: nat)
    requires i + 1 < |t| && IsDigit(t[i]) && IsDigit(t[i + 1])
    ensures Pad2(Field(t, i)) == t[i..i + 2]
  {
  }

  /** Every well-shaped timestamp whose fields form a valid reading is the
      format of that reading. */
  lemma TimestampOfParse(t: string)
    requires IsTimestampShape(t) && ValidClock(ParseTimestamp(t))
    ensures Timestamp(ParseTimestamp(t)) == t
  {
    Pad2OfField(t, 0);
    Pad2OfField(t, 2);
    Pad2OfField(t, 4);
    Pad2OfField(t, 7);
    Pad2OfField(t, 9);
    Pad2OfField(t, 11);
    var c := ParseTimestamp(t);
    assert c.year % 100 == c.year;
    assert Timestamp(c) == Pad2(c.year) + Pad2(c.month) + Pad2(c.day) + "-" + Pad2(c.hour) + Pad2(c.minute) + Pad2(c.second);
    Reassemble(t);
  }

  lemma Reassemble(t: string)
    requires |t| == 13 && t[6] == '-'
    ensures t == t[0..2] + t[2..4] + t[4..6] + "-" + t[7..9] + t[9..11] + t[11..13]
  {
    var u := t[0..2] + t[2..4] + t[4..6] + "-" + t[7..9] + t[9..11] + t[11..13];
    assert |u| == 13;
    forall i | 0 <= i < 13
      ensures u[i] == t[i]
    {
    }
  }

  /** Two readings give the same timestamp exactly when they agree on all
      fields but the century. */
  lemma TimestampInjective(c: Clock, d: Clock)
    requires ValidClock(c) && ValidClock(d)
    ensures Timestamp(c) == Timestamp(d) <==> c.(year := c.year % 100) == d.(year := d.year % 100)
  {
    ParseOfTimestamp(c);
    ParseOfTimestamp(d);
  }

  /** The normalised name has no spaces, keeps every other character, and
      normalising again changes nothing. */
  lemma NormalizeNameProperties(name: string)
    ensures ' ' !in NormalizeName(name)
    ensures forall i :: 0 <= i < |name| && name[i] != ' ' ==> NormalizeName(name)[i] == name[i]
    ensures NormalizeName(NormalizeName(name)) == NormalizeName(name)
  {
    var r := NormalizeName(name);
    forall i | 0 <= i < |r|
      ensures r[i] != ' '
    {
    }
  }

  /** A generated id splits back into the normalised name and the
      timestamp of the clock reading. */
  lemma GenerateSplits(name: string, c: Clock)
    requires ValidClock(c)
    ensures |Generate(name, c)| == |name| + 14
    ensures SplitId(Generate(name, c)) == (NormalizeName(name), Timestamp(c))
  {
    TimestampShape(c);
    var n := NormalizeName(name);
    var id := Generate(name, c);
    assert id == n + ("-" + Timestamp(c));
    assert id[..|id| - 14] == n;
    assert id[|id| - 13..] == Timestamp(c);
  }

  /** Names that differ only by ' ' against '_' collide: two ids generated
      at the same reading are equal exactly when the names agree everywhere
      up to that exchange. */
  lemma GenerateCollides(a: string, b: string, c: Clock)
    requires ValidClock(c)
    ensures Generate(a, c) == Generate(b, c) <==>
      |a| == |b| && forall i :: 0 <= i < |a| ==> a[i] == b[i] || (IsSpaceOrUnderscore(a[i]) && IsSpaceOrUnderscore(b[i]))
  {
    GenerateSplits(a, c);
    GenerateSplits(b, c);
    var na, nb := NormalizeName(a), NormalizeName(b);
    if |a| == |b| && forall i :: 0 <= i < |a| ==> a[i] == b[i] || (IsSpaceOrUnderscore(a[i]) && IsSpaceOrUnderscore(b[i])) {
      assert na == nb;
    }
    if Generate(a, c) == Generate(b, c) {
      assert na == nb;
      forall i | 0 <= i < |a|
        ensures a[i] == b[i] || (IsSpaceOrUnderscore(a[i]) && IsSpaceOrUnderscore(b[i]))
      {
        assert na[i] == nb[i];
      }
    }
  }

  /** Ids from different readings differ unless the timestamps agree. */
  lemma GenerateDistinctTimes(a: string, b: string, c: Clock, d: Clock)
    requires ValidClock(c) && ValidClock(d)
    ensures Generate(a, c) == Generate(b, d) <==> NormalizeName(a) == NormalizeName(b) && Timestamp(c) == Timestamp(d)
  {
    GenerateSplits(a, c);
    GenerateSplits(b, d);
  }
}

=== FILE: key_store.dfy ===
/** `MemoryUniqGeneratedKeysStore`: a map whose keys the store generates
    itself, as the decimal numerals of a counter that starts at 0 and is
    incremented before each insertion. */
module KeyStore {
  import opened Base
  import opened Decimal

  datatype KeyStore<V> = KeyStore(count: nat, data: map<string, V>)

  /** Representation invariant: every key is a numeral the counter has
      already passed, so the next numeral is never in use. */
  predicate Valid<V>(st: KeyStore<V>) {
    forall k :: k in st.data ==> AllDigits(k) && ParseDecimal(k) <= st.count
  }

  /** A freshly constructed store. */
  function Empty<V>(): (st: KeyStore<V>)
    ensures Valid(st) && st.data == map[]
    ensures st.count == 0
  {
    KeyStore(0, map[])
  }

  /** `get`: the stored value, or null. */
  function Get<V>(st: KeyStore<V>, id: string): Option<V> {
    if id in st.data then Some(st.data[id]) else None
  }

  /** `containsKey`. */
  predicate ContainsKey<V>(st: KeyStore<V>, id: string) {
    id in st.data
  }

  /** `put`: increments the counter and stores `v` under its numeral. */
  function Put<V>(st: KeyStore<V>, v: V): (r: (string, KeyStore<V>))
    ensures r.1.count == st.count + 1 && r.0 == ToDecimal(r.1.count)
    ensures Valid(st) ==> r.0 !in st.data && Valid(r.1)
    ensures Get(r.1, r.0) == Some(v) && ContainsKey(r.1, r.0)
    ensures forall k :: k != r.0 ==> Get(r.1, k) == Get(st, k)
  {
    var id := ToDecimal(st.count + 1);
    ParseToDecimal(st.count + 1);
    (id, KeyStore(st.count + 1, st.data[id := v]))
  }

  /** `remove`: returns the previous value (or null) and drops the key. */
  function Remove<V>(st: KeyStore<V>, id: string): (r: (Option<V>, KeyStore<V>))
    ensures r.0.Some? <==> ContainsKey(st, id)
    ensures r.0.Some? ==> r.0.value == st.data[id]
    ensures !ContainsKey(r.1, id) && Get(r.1, id) == None
    ensures forall k :: k != id ==> Get(r.1, k) == Get(st, k)
    ensures r.1.count == st.count
    ensures Valid(st) ==> Valid(r.1)
  {
    (Get(st, id), KeyStore(st.count, st.data - {id}))
  }

  /** `has`: whether some key maps to `v`. */
  function Has<V(==)>(st: KeyStore<V>, v: V): (r: bool)
    ensures r <==> exists k :: k in st.data && st.data[k] == v
  {
    v in st.data.Values
  }

  /** A sequence of calls to `put` and `remove`. */
  datatype Op<V> = PutOp(value: V) | RemoveOp(id: string)

  /** The store after running `ops`, and the keys the puts returned, in order. */
  function Run<V>(st: KeyStore<V>, ops: seq<Op<V>>): (KeyStore<V>, seq<string>)
    decreases |ops|
  {
    if ops == [] then (st, [])
    else match ops[0]
      case PutOp(v) =>
        var put := Put(st, v);
        var rest := Run(put.1, ops[1..]);
        (rest.0, [put.0] + rest.1)
      case RemoveOp(id) =>
        Run(Remove(st, id).1, ops[1..])
  }

  /** Over any run, the store stays valid and the i-th put (from 0) returns
      the numeral of the starting counter plus i + 1: removals in between do
      not make the counter go back. */
  lemma {:induction false} RunNumbersPuts<V>(st: KeyStore<V>, ops: seq<Op<V>>)
    requires Valid(st)
    ensures Valid(Run(st, ops).0)
    ensures Run(st, ops).0.count == st.count + |Run(st, ops).1|
    ensures forall i :: 0 <= i < |Run(st, ops).1| ==> Run(st, ops).1[i] == ToDecimal(st.count + i + 1)
    decreases |ops|
  {
    if ops != [] {
      match ops[0]
      case PutOp(v) =>
        var put := Put(st, v);
        RunNumbersPuts(put.1, ops[1..]);
        var rest := Run(put.1, ops[1..]);
        var all := [put.0] + rest.1;
        assert Run(st, ops) == (rest.0, all);
        forall i | 0 <= i < |all|
          ensures all[i] == ToDecimal(st.count + i + 1)
        {
          if i > 0 {
            assert all[i] == rest.1[i - 1];
          }
        }
      case RemoveOp(id) =>
        RunNumbersPuts(Remove(st, id).1, ops[1..]);
    }
  }

  /** Keys returned by the puts of a run are pairwise distinct, even when
      values were removed in between, and none was in use before the run. */
  lemma RunIssuesFreshKeys<V>(st: KeyStore<V>, ops: seq<Op<V>>)
    requires Valid(st)
    ensures forall i, j :: 0 <= i < j < |Run(st, ops).1| ==> Run(st, ops).1[i] != Run(st, ops).1[j]
    ensures forall i :: 0 <= i < |Run(st, ops).1| ==> Run(st, ops).1[i] !in st.data
  {
    RunNumbersPuts(st, ops);
    var ids := Run(st, ops).1;
    forall i, j | 0 <= i < j < |ids|
      ensures ids[i] != ids[j]
    {
      ToDecimalInjective(st.count + i + 1, st.count + j + 1);
    }
    forall i | 0 <= i < |ids|
      ensures ids[i] !in st.data
    {
      ParseToDecimal(st.count + i + 1);
    }
  }

  /** From a new store the n-th put returns the numeral of n: "1", "2", ... */
  lemma PutsCountFromOne<V>(ops: seq<Op<V>>)
    ensures forall i :: 0 <= i < |Run(Empty<V>(), ops).1| ==> Run(Empty<V>(), ops).1[i] == ToDecimal(i + 1)
  {
    RunNumbersPuts(Empty<V>(), ops);
  }

  /** A key that was removed is never handed out again by later puts: the
      counter has already passed its numeral. */
  lemma RemovedKeyNeverReissued<V>(st: KeyStore<V>, id: string, ops: seq<Op<V>>)
    requires Valid(st) && ContainsKey(st, id)
    ensures id !in Run(Remove(st, id).1, ops).1
  {
    var st1 := Remove(st, id).1;
    RunNumbersPuts(st1, ops);
    var ids := Run(st1, ops).1;
    forall i | 0 <= i < |ids|
      ensures ids[i] != id
    {
      ParseToDecimal(st.count + i + 1);
    }
  }
}

=== FILE: memory_object_store.dfy ===
/** `MemoryObjectStore`: the in-memory backend. Objects live in a
    generated-keys store; unknown ids raise not-found errors. */
module MemoryObjectStore {
  import opened Base
  import KS = KeyStore

  datatype MemoryStore = MemoryStore(data: KS.KeyStore<Bytes>)

  /** `getId` of this backend. */
  const StoreId := "in_memory"

  /** Every reachable store keeps the key-store invariant. */
  predicate Valid(st: MemoryStore) {
    KS.Valid(st.data)
  }

  function New(): (st: MemoryStore)
    ensures Valid(st)
  {
    MemoryStore(KS.Empty())
  }

  /** `save(byte[])`: stores the bytes under a newly generated id. */
  function Save(st: MemoryStore, bytes: Bytes): (r: (string, MemoryStore))
    ensures Valid(st) ==> Valid(r.1) && !KS.ContainsKey(st.data, r.0)
    ensures GetContent(r.1, r.0) == Success(bytes)
    ensures forall id :: id != r.0 ==> GetContent(r.1, id) == GetContent(st, id)
  {
    var put := KS.Put(st.data, bytes);
    (put.0, MemoryStore(put.1))
  }

  /** `save(InputStream)`: reads the whole stream, then saves its bytes; a
      read failure propagates and stores nothing. */
  function SaveStream(st: MemoryStore, input: Stream): (r: (Result<string>, MemoryStore))
    ensures input.broken ==> r == (Failure(IoFailure), st)
    ensures !input.broken ==> r.0 == Success(Save(st, input.bytes).0) && r.1 == Save(st, input.bytes).1
  {
    if input.broken then (Failure(IoFailure), st)
    else
      var saved := Save(st, input.bytes);
      (Success(saved.0), saved.1)
  }

  /** `getContent`: the stored bytes, or FileNotFoundException. */
  function GetContent(st: MemoryStore, id: string): (r: Result<Bytes>)
    ensures r.Success? <==> KS.ContainsKey(st.data, id)
    ensures r.Failure? ==> r.error == FileNotFound
  {
    match KS.Get(st.data, id)
    case Some(bytes) => Success(bytes)
    case None => Failure(FileNotFound)
  }

  /** `remove`: NoSuchElementException for an unknown id, otherwise drops
      that id only. */
  function Remove(st: MemoryStore, id: string): (r: (Result<()>, MemoryStore))
    ensures r.0.Failure? <==> !KS.ContainsKey(st.data, id)
    ensures r.0.Failure? ==> r.0.error == NoSuchElement && r.1 == st
    ensures r.0.Success? ==> GetContent(r.1, id) == Failure(FileNotFound)
    ensures forall other :: other != id ==> GetContent(r.1, other) == GetContent(st, other)
    ensures Valid(st) ==> Valid(r.1)
  {
    if !KS.ContainsKey(st.data, id) then (Failure(NoSuchElement), st)
    else (Success(()), MemoryStore(KS.Remove(st.data, id).1))
  }

  /** Two saves in a row return different ids, and both payloads stay
      retrievable byte for byte. */
  lemma TwoSavesDistinct(st: MemoryStore, a: Bytes, b: Bytes)
    requires Valid(st)
    ensures var (id1, st1) := Save(st, a);
      var (id2, st2) := Save(st1, b);
      id1 != id2 && GetContent(st2, id1) == Success(a) && GetContent(st2, id2) == Success(b)
  {
    var (id1, st1) := Save(st, a);
    assert KS.ContainsKey(st1.data, id1);
  }

  /** After `remove` of a saved id its content is not found, while an object
      saved later is unaffected. */
  lemma RemoveAfterSave(st: MemoryStore, a: Bytes, b: Bytes)
    requires Valid(st)
    ensures var (id1, st1) := Save(st, a);
      var (id2, st2) := Save(st1, b);
      var (done, st3) := Remove(st2, id1);
      done == Success(()) && GetContent(st3, id1) == Failure(FileNotFound)
      && GetContent(st3, id2) == Success(b)
  {
    TwoSavesDistinct(st, a, b);
  }

  /** The basic scenario: [1,2,3,4] and [1,2] saved into a new store get
      distinct ids "1" and "2" and read back exactly. */
  lemma BasicScenario()
    ensures var (id1, st1) := Save(New(), [1, 2, 3, 4]);
      var (id2, st2) := Save(st1, [1, 2]);
      id1 == "1" && id2 == "2"
      && GetContent(st2, id1) == Success([1, 2, 3, 4]) && GetContent(st2, id2) == Success([1, 2])
  {
    TwoSavesDistinct(New(), [1, 2, 3, 4], [1, 2]);
  }
}

=== FILE: org_specific_store.dfy ===
/** `OrgSpecificHdfsObjectStore`: an HDFS store whose chroot is given as a
    URL; construction makes sure the chroot directory exists, and every
    operation is the wrapped store's. */
module OrgSpecificStore {
  import opened Base
  import opened Strings
  import opened HadoopPath
  import opened HadoopUri
  import opened Uuid
  import opened FileSystem
  import H = HdfsObjectStore

  datatype OrgStore = OrgStore(inner: H.HdfsStore)

  /** The constructor: parses the URL (an empty one is refused by `Path`),
      runs `mkdirs` on it, and wraps a store without technical users. A
      failing `mkdirs` propagates and no store is made. */
  function Open(fs: Fs, url: string): (r: (Result<OrgStore>, Fs))
    ensures url == [] ==> r == (Failure(IllegalArgument), fs)
    ensures r.0.Failure? ==> r.1 == fs
    ensures url != [] && r.0.Failure? ==> r.0.error == IoFailure
    ensures url != [] ==> (r.0.Success? <==> NoFileOn(fs, MakePath(url)))
    ensures r.0.Success? ==> r.0.value.inner == H.NewStore(MakePath(url))
  {
    if url == [] then (Failure(IllegalArgument), fs)
    else
      var chroot := MakePath(url);
      match Mkdirs(fs, chroot)
      case Failure(e) => (Failure(e), fs)
      case Success(fs1) => (Success(OrgStore(H.NewStore(chroot))), fs1)
  }

  /** The constructor exactly as written: the store keeps the Path that
      `new Path(url)` builds, while `mkdirs` works on the location that
      Path resolves to. `Open` takes the resolved location as the chroot
      instead; the two differ in spelling only when the URL's path
      component holds '.' or a run of three or more '/' before its end
      (`TrailingSlashesChrootDeleted`). */
  function OpenAsWritten(fs: Fs, url: string): (r: (Result<OrgStore>, Fs))
    ensures url == [] ==> r == (Failure(IllegalArgument), fs)
    ensures r.0.Failure? ==> r.1 == fs
    ensures url != [] && r.0.Failure? ==> r.0.error == IoFailure
    ensures url != [] ==> (r.0.Success? <==> NoFileOn(fs, Resolve(NewPath(url))))
    ensures r.0.Success? ==> r.0.value.inner == H.NewStore(NewPath(url))
  {
    if url == [] then (Failure(IllegalArgument), fs)
    else
      var chroot := NewPath(url);
      match Mkdirs(fs, Resolve(chroot))
      case Failure(e) => (Failure(e), fs)
      case Success(fs1) => (Success(OrgStore(H.NewStore(chroot))), fs1)
  }

  /** For a URL whose path component has no '.', the constructor as
      written prepares the same directories as `Open` and succeeds or
      fails alike. */
  lemma OpenAsWrittenAgrees(fs: Fs, url: string)
    requires url != [] && '.' !in url[PathStart(url)..]
    ensures OpenAsWritten(fs, url).1 == Open(fs, url).1
    ensures OpenAsWritten(fs, url).0.Success? <==> Open(fs, url).0.Success?
  {
    NewPathAgrees(url);
  }

  /** `save`, `getContent`, `remove` and `getId` are the wrapped store's. */
  function Save(st: OrgStore, fs: Fs, dir: UuidText, input: Stream): (r: (Result<string>, Fs))
  {
    H.Save(st.inner, fs, dir, input)
  }

  function GetContent(st: OrgStore, fs: Fs, id: string): (r: Result<Bytes>)
  {
    H.GetContent(st.inner, fs, id)
  }

  function Remove(st: OrgStore, fs: Fs, id: string): (r: (Result<()>, Fs))
  {
    H.Remove(st.inner, fs, id)
  }

  function GetId(st: OrgStore): (r: string)
  {
    H.GetId(st.inner)
  }

  // ------------------------------------------------------------- lemmas

  /** After construction the chroot and every directory above it exist as
      directories, every path that existed keeps its node, and the store
      grants no technical users anything. */
  lemma OpenPreparesChroot(fs: Fs, url: string)
    requires Open(fs, url).0.Success?
    ensures var r := Open(fs, url);
      && (forall x :: x in DirsFor(r.0.value.inner.chroot) ==> IsDir(r.1, x))
      && (forall x :: x in fs ==> x in r.1 && r.1[x] == fs[x])
      && r.0.value.inner.technicalUsers == []
  {
  }

  /** An existing chroot (with the directories above it) is left as it is. */
  lemma OpenExistingChroot(fs: Fs, url: string)
    requires url != [] && forall x :: x in DirsFor(MakePath(url)) ==> IsDir(fs, x)
    ensures Open(fs, url).0.Success? && Open(fs, url).1 == fs
  {
    MkdirsExisting(fs, MakePath(url));
  }

  /** `getId` is the chroot URL in its parsed form: it names the same
      chroot when parsed again, and it is the URL itself when the URL has
      no empty authority and its path component is already normalised. */
  lemma GetIdNamesChroot(fs: Fs, url: string)
    requires Open(fs, url).0.Success?
    ensures var id := GetId(Open(fs, url).0.value);
      && id != [] && MakePath(id) == MakePath(url)
      && (|Prefix(url)| == PathStart(url) && IsNormal(url[PathStart(url)..]) ==> id == url)
  {
    assert GetId(Open(fs, url).0.value) == Text(MakePath(url));
    MakePathIdempotent(url);
    if |Prefix(url)| == PathStart(url) && IsNormal(url[PathStart(url)..]) {
      NormalUrlText(url);
    }
  }

  /** A plain folder name is kept verbatim as the store id. */
  lemma GetIdOfFolderName(fs: Fs, url: string)
    requires IsName(url) && ':' !in url && Open(fs, url).0.Success?
    ensures GetId(Open(fs, url).0.value) == url
  {
    RelativeName(url);
  }

  /** As written, a plain folder name without '.' is kept verbatim as the
      store id too. */
  lemma GetIdAsWrittenOfFolderName(fs: Fs, url: string)
    requires IsName(url) && ':' !in url && '.' !in url && OpenAsWritten(fs, url).0.Success?
    ensures GetId(OpenAsWritten(fs, url).0.value) == url
  {
    NewPathOfName(url);
  }

  /** A chroot URL ending in "///": the single replace pass leaves the
      chroot as written with a trailing '/', so `getId` ends in '/'. The id
      "/000000_1" then builds the chroot without that '/', which passes the
      guard as written, and `remove` as written deletes the chroot with
      everything in it. `Open` reads the same URL as the chroot itself,
      and there the id is refused. */
  lemma TrailingSlashesChrootDeleted(fs: Fs, c: Path)
    requires IsChroot(c) && '.' !in c.path && c in fs
    ensures var url := Text(c) + "/" + "//";
      && url != [] && MakePath(url) == c
      && NewPath(url) == Path(c.prefix, c.path + "/")
      && H.GetId(H.NewStore(NewPath(url))) == Text(c) + "/"
    ensures var st := H.NewStore(Path(c.prefix, c.path + "/"));
      var r := H.RemoveAsWritten(st, fs, "/000000_1");
      && r.0 == Success(())
      && forall x :: x in r.1 ==> !InSubtree(x, c)
    ensures H.Remove(H.NewStore(c), fs, "/000000_1") == (Failure(IllegalArgument), fs)
  {
    TrailingSlashesParse(c);
    TrailingSlashRemoveDeletes(fs, c);
    H.RemoveRootIdRefused(H.NewStore(c), fs);
  }

  lemma TrailingSlashRemoveDeletes(fs: Fs, c: Path)
    requires IsChroot(c) && '.' !in c.path && c in fs
    ensures var st := H.NewStore(Path(c.prefix, c.path + "/"));
      H.RemoveAsWritten(st, fs, "/000000_1") == (Success(()), Delete(fs, c))
  {
    var st := H.NewStore(Path(c.prefix, c.path + "/"));
    TrailingSlashChrootPath(c);
    H.RootIdDirectory();
    ChrootResolves(c);
    H.RemoveAsWrittenAt(st, fs, "/000000_1", c);
  }

  /** `new Path` of a chroot's text followed by "///", and what `Open`
      reads from it. */
  lemma TrailingSlashesParse(c: Path)
    requires IsChroot(c) && '.' !in c.path
    ensures var url := Text(c) + "/" + "//";
      && url != [] && MakePath(url) == c
      && NewPath(url) == Path(c.prefix, c.path + "/")
      && Text(NewPath(url)) == Text(c) + "/"
  {
    TrailingSlashesRead(c);
    TrailingSlashesBuilt(c);
    ConcatAssoc(c.prefix, c.path, "/");
  }

  lemma TrailingSlashesRead(c: Path)
    requires IsChroot(c)
    ensures Text(c) + "/" + "//" != [] && MakePath(Text(c) + "/" + "//") == c
  {
    ChildParse(c, "//");
    ChildShape(c, "//");
  }

  lemma TrailingSlashesBuilt(c: Path)
    requires IsChroot(c) && '.' !in c.path
    ensures NewPath(Text(c) + "/" + "//") == Path(c.prefix, c.path + "/")
  {
    H.SlashesAsWritten(H.NewStore(c));
  }

  /** With the chroot as written "<chroot>/", the directory part "" of the
      id "/000000_1" builds the chroot without its trailing '/'. */
  lemma TrailingSlashChrootPath(c: Path)
    requires IsChroot(c) && '.' !in c.path
    ensures var st := H.NewStore(Path(c.prefix, c.path + "/"));
      H.IdToPathAsWritten(st, []) == c && c != st.chroot
  {
    var q := c.path;
    ChrootNormal(c);
    var st := H.NewStore(Path(c.prefix, q + "/"));
    SlashedText(c.prefix, q);
    NewPathAfterChroot(c, "//");
    DoubleSlashAppended(q);
    assert H.IdToPathAsWritten(st, []) == NewPath(Text(c) + "//");
  }

  lemma SlashedText(pre: string, q: string)
    ensures Text(Path(pre, q + "/")) + "/" + [] == Text(Path(pre, q)) + "//"
  {
  }

  /** `remove` through this store never deletes its chroot. */
  lemma RemoveKeepsChroot(st: OrgStore, fs: Fs, id: string)
    requires H.Valid(st.inner) && st.inner.chroot in fs
    ensures st.inner.chroot in Remove(st, fs, id).1
  {
    H.RemoveStaysInChroot(st.inner, fs, id);
  }

  /** With no technical users, `save` leaves the object directory's ACL as
      it found it: the grants add no entries. */
  lemma SaveAddsNoAclEntries(st: OrgStore, fs: Fs, dir: UuidText, input: Stream)
    requires st.inner.technicalUsers == [] && H.Valid(st.inner) && NoFileOn(fs, H.IdToPath(st.inner, dir))
    ensures var fs', d := Save(st, fs, dir, input).1, H.IdToPath(st.inner, dir);
      IsDir(fs', d) && fs'[d].acl == (if d in fs then fs[d].acl else map[])
  {
    H.SaveGrantsAcls(st.inner, fs, dir, input);
    H.GrantedAclEntries([], if H.IdToPath(st.inner, dir) in fs then fs[H.IdToPath(st.inner, dir)].acl else map[]);
  }

  /** End to end: a store opened on a chroot URL saves an object whose
      directory is not blocked by a file, reads its bytes back by the
      returned id, and removes it again. */
  lemma OpenSaveGetRemove(fs: Fs, url: string, dir: UuidText, input: Stream)
    requires url != [] && MakePath(url).path != [] && MakePath(url).path != "/"
    requires Open(fs, url).0.Success?
    requires !IsFile(fs, H.IdToPath(Open(fs, url).0.value.inner, dir))
    ensures var st, fs1 := Open(fs, url).0.value, Open(fs, url).1;
      var s := Save(st, fs1, dir, input);
      && s.0 == (if input.broken then Failure(IoFailure) else Success(H.ObjectIdText(dir)))
      && GetContent(st, s.1, H.ObjectIdText(dir)) == Success(input.bytes)
      && Remove(st, s.1, H.ObjectIdText(dir)).0 == Success(())
      && ('.' !in MakePath(url).path ==> H.RemoveAsWritten(st.inner, s.1, H.ObjectIdText(dir)).0 == Success(()))
  {
    var st, fs1 := Open(fs, url).0.value, Open(fs, url).1;
    OpenedStoreReady(fs, url, dir);
    H.SaveSucceedsIff(st.inner, fs1, dir, input);
    H.SaveThenGetContent(st.inner, fs1, dir, input);
    H.SaveThenRemove(st.inner, fs1, dir, input);
  }

  /** After opening, the store is valid and no file blocks an object
      directory that no file blocked before. */
  lemma OpenedStoreReady(fs: Fs, url: string, dir: UuidText)
    requires url != [] && MakePath(url).path != [] && MakePath(url).path != "/"
    requires Open(fs, url).0.Success?
    requires !IsFile(fs, H.IdToPath(Open(fs, url).0.value.inner, dir))
    ensures var st, fs1 := Open(fs, url).0.value, Open(fs, url).1;
      H.Valid(st.inner) && NoFileOn(fs1, H.IdToPath(st.inner, dir))
  {
    var c := MakePath(url);
    var fs1 := Mkdirs(fs, c).value;
    assert Open(fs, url) == (Success(OrgStore(H.NewStore(c))), fs1);
    var st := H.NewStore(c);
    ParsedChroot(url);
    var d := H.IdToPath(st, dir);
    H.Layout(st, dir);
    forall q | q in DirsFor(d)
      ensures !IsFile(fs1, q)
    {
      if q != d {
        assert q in DirsFor(c);
      }
    }
  }
}

=== FILE: path_template.dfy ===
/** `PathTemplate.resolveOrg`: a commons-lang `StrSubstitutor` with prefix
    "%{", suffix "}", the default escape character '$' and one variable,
    `organization`, bound to the org's UUID text.

    The substitutor scans left to right. A "%{" directly after '$' is an
    escaped marker: the '$' is dropped and scanning goes on after the '%'.
    Any other "%{" opens a variable that runs to the next '}': the variable
    `organization` is replaced (its value is scanned again, which changes
    nothing because UUID text holds no "%{"), any other name is kept as
    written, and scanning goes on after the '}'. A "%{" with no '}' after it
    ends the scan and the rest is kept as written. */
module PathTemplate {
  import opened Strings
  import opened Uuid

  const OrgPlaceholder := "organization"

  /** "%{" starts at index `i` of `s`. */
  predicate MarkerAt(s: string, i: int) {
    0 <= i && i + 1 < |s| && s[i] == '%' && s[i + 1] == '{'
  }

  predicate HasMarker(s: string) {
    exists i :: 0 <= i < |s| && MarkerAt(s, i)
  }

  function ResolveOrg(s: string, org: UuidText): (r: string)
    decreases |s|
  {
    if s == [] then []
    else if 3 <= |s| && s[0] == '$' && MarkerAt(s, 1) then "%" + ResolveOrg(s[2..], org)
    else if MarkerAt(s, 0) then
      var k := IndexOf(s[2..], '}');
      if k == |s| - 2 then s
      else
        var name := s[2..2 + k];
        (if name == OrgPlaceholder then org else s[..k + 3]) + ResolveOrg(s[k + 3..], org)
    else [s[0]] + ResolveOrg(s[1..], org)
  }

  // ------------------------------------------------------- templates

  /** A template as the pieces a reader sees in it: literal text and
      "%{name}" placeholders. */
  datatype Piece = Literal(text: string) | Placeholder(name: string)

  function RenderPiece(p: Piece): string {
    match p
    case Literal(t) => t
    case Placeholder(n) => "%{" + n + "}"
  }

  function Render(ps: seq<Piece>): string {
    if ps == [] then [] else RenderPiece(ps[0]) + Render(ps[1..])
  }

  /** The intended meaning: every `organization` placeholder becomes the
      org text, and everything else stays as it is. */
  function Instantiate(ps: seq<Piece>, org: string): (r: seq<Piece>)
    ensures |r| == |ps|
    ensures forall i :: 0 <= i < |ps| ==> r[i] == (if ps[i] == Placeholder(OrgPlaceholder) then Literal(org) else ps[i])
  {
    if ps == [] then [] else
      [if ps[0] == Placeholder(OrgPlaceholder) then Literal(org) else ps[0]] + Instantiate(ps[1..], org)
  }

  /** Literal text that the substitutor reads as literal text whatever
      follows it: no marker inside, and no '%' or '$' at its end that could
      join a following "%{" or "{". */
  predicate PlainText(t: string) {
    && !HasMarker(t)
    && (t != [] ==> t[|t| - 1] != '%' && t[|t| - 1] != '$')
  }

  predicate WellFormedPiece(p: Piece) {
    match p
    case Literal(t) => PlainText(t)
    case Placeholder(n) => '}' !in n
  }

  predicate WellFormed(ps: seq<Piece>) {
    forall i :: 0 <= i < |ps| ==> WellFormedPiece(ps[i])
  }

  // ------------------------------------------------------------- lemmas

  /** Dropping the first character keeps text free of markers. */
  lemma NoMarkerTail(s: string)
    requires s != [] && !HasMarker(s)
    ensures !HasMarker(s[1..])
  {
    forall i | 0 <= i < |s[1..]|
      ensures !MarkerAt(s[1..], i)
    {
      assert !MarkerAt(s, i + 1);
    }
  }

  /** Text without '%' has no marker. */
  lemma NoPercentNoMarker(s: string)
    requires '%' !in s
    ensures !HasMarker(s)
  {
    forall i | 0 <= i < |s|
      ensures !MarkerAt(s, i)
    {
      assert s[i] in s;
    }
  }

  /** Plain text followed by anything starts with an ordinary character. */
  lemma PlainTextHead(t: string, rest: string)
    requires t != [] && PlainText(t)
    ensures var s := t + rest; s[0] == t[0] && s[1..] == t[1..] + rest
    ensures var s := t + rest; !(3 <= |s| && s[0] == '$' && MarkerAt(s, 1)) && !MarkerAt(s, 0)
  {
    var s := t + rest;
    if 2 <= |t| {
      assert !MarkerAt(t, 0);
    }
    if 3 <= |t| {
      assert !MarkerAt(t, 1);
    }
  }

  lemma {:induction false} ResolvePlainText(t: string, rest: string, org: UuidText)
    requires PlainText(t)
    ensures ResolveOrg(t + rest, org) == t + ResolveOrg(rest, org)
    decreases |t|
  {
    if t != [] {
      var s := t + rest;
      PlainTextHead(t, rest);
      assert ResolveOrg(s, org) == [t[0]] + ResolveOrg(t[1..] + rest, org);
      NoMarkerTail(t);
      assert PlainText(t[1..]);
      ResolvePlainText(t[1..], rest, org);
      assert t == [t[0]] + t[1..];
    } else {
      assert t + rest == rest;
    }
  }

  lemma ResolvePlaceholder(n: string, rest: string, org: UuidText)
    requires '}' !in n
    ensures ResolveOrg("%{" + n + "}" + rest, org)
      == (if n == OrgPlaceholder then org else "%{" + n + "}") + ResolveOrg(rest, org)
  {
    var s := "%{" + n + "}" + rest;
    assert MarkerAt(s, 0);
    assert s[2..] == n + "}" + rest;
    IndexOfClosing(n, rest);
    assert s[2..2 + |n|] == n;
    assert s[..|n| + 3] == "%{" + n + "}";
    assert s[|n| + 3..] == rest;
  }

  lemma IndexOfClosing(n: string, rest: string)
    requires '}' !in n
    ensures IndexOf(n + "}" + rest, '}') == |n|
  {
    var s := n + "}" + rest;
    assert s[|n|] == '}';
    forall j | 0 <= j < |n|
      ensures s[j] != '}'
    {
      assert s[j] == n[j] && n[j] in n;
    }
  }

  /** Resolving a rendered well-formed template gives the rendering of its
      instantiation: every `organization` placeholder is replaced, every
      other placeholder and all literal text are kept. */
  lemma {:induction false} ResolveRender(ps: seq<Piece>, org: UuidText)
    requires WellFormed(ps)
    ensures ResolveOrg(Render(ps), org) == Render(Instantiate(ps, org))
    decreases |ps|
  {
    if ps != [] {
      assert WellFormedPiece(ps[0]);
      assert WellFormed(ps[1..]) by {
        forall i | 0 <= i < |ps[1..]|
          ensures WellFormedPiece(ps[1..][i])
        {
          assert ps[1..][i] == ps[i + 1];
        }
      }
      ResolveRender(ps[1..], org);
      var inst := Instantiate(ps, org);
      assert inst[1..] == Instantiate(ps[1..], org);
      match ps[0]
      case Literal(t) =>
        ResolvePlainText(t, Render(ps[1..]), org);
      case Placeholder(n) =>
        ConcatAssoc("%{" + n, "}", Render(ps[1..]));
        assert Render(ps) == "%{" + n + "}" + Render(ps[1..]);
        ResolvePlaceholder(n, Render(ps[1..]), org);
    }
  }

  /** UUID text is plain text. */
  lemma UuidIsPlain(org: UuidText)
    ensures PlainText(org)
  {
    UuidChars(org);
    NoPercentNoMarker(org);
  }

  /** Instantiating keeps a template well formed and leaves no
      `organization` placeholder behind. */
  lemma InstantiateWellFormed(ps: seq<Piece>, org: UuidText)
    requires WellFormed(ps)
    ensures WellFormed(Instantiate(ps, org))
    ensures forall i :: 0 <= i < |ps| ==> Instantiate(ps, org)[i] != Placeholder(OrgPlaceholder)
  {
    UuidIsPlain(org);
  }

  /** Resolution is idempotent on well-formed templates: the org text holds
      no marker, so a second pass finds nothing left to replace. */
  lemma ResolveIdempotent(ps: seq<Piece>, org: UuidText)
    requires WellFormed(ps)
    ensures ResolveOrg(ResolveOrg(Render(ps), org), org) == ResolveOrg(Render(ps), org)
  {
    var inst := Instantiate(ps, org);
    ResolveRender(ps, org);
    InstantiateWellFormed(ps, org);
    ResolveRender(inst, org);
    assert Instantiate(inst, org) == inst;
  }

  /** Text with no "%{" in it comes back unchanged. */
  lemma {:induction false} ResolveWithoutMarker(s: string, org: UuidText)
    requires !HasMarker(s)
    ensures ResolveOrg(s, org) == s
    decreases |s|
  {
    if s != [] {
      assert !MarkerAt(s, 0) && !MarkerAt(s, 1);
      NoMarkerTail(s);
      ResolveWithoutMarker(s[1..], org);
      assert s == [s[0]] + s[1..];
    }
  }

  /** An escaped marker loses its '$' and is otherwise kept. */
  lemma ResolveEscaped(rest: string, org: UuidText)
    ensures ResolveOrg("$%{" + rest, org) == "%{" + ResolveOrg(rest, org)
  {
    var s := "$%{" + rest;
    assert MarkerAt(s, 1);
    assert s[2..] == "{" + rest;
    var t := "{" + rest;
    assert !MarkerAt(t, 0);
    assert t[1..] == rest;
  }

  /** Without the well-formedness condition resolution is not idempotent:
      an escaped placeholder comes out unescaped, and a second pass then
      replaces it when it names the organization. */
  lemma EscapedPlaceholderResolvesLater(n: string, org: UuidText)
    requires '%' !in n && '$' !in n && '}' !in n
    ensures ResolveOrg("$%{" + n + "}", org) == "%{" + n + "}"
    ensures ResolveOrg(ResolveOrg("$%{" + n + "}", org), org) == (if n == OrgPlaceholder then org else "%{" + n + "}")
  {
    NoPercentNoMarker(n);
    assert n != [] ==> n[|n| - 1] in n;
    ResolvePlainText(n, "}", org);
    assert ResolveOrg("}", org) == "}" + ResolveOrg([], org);
    ConcatAssoc("$%{", n, "}");
    ResolveEscaped(n + "}", org);
    ResolvePlaceholder(n, [], org);
    assert "%{" + n + "}" + [] == "%{" + n + "}";
  }
}

=== FILE: store_factory.dfy ===
/** The string logic of `OrgSpecificHdfsObjectStoreFactory`: the tenant
    URI of an org, and whether a Kerberos login precedes obtaining the file
    system. Configuration values are passed in; the login and the file
    system themselves are foreign calls and appear only as steps. */
module StoreFactory {
  import opened Base
  import opened Uuid
  import opened Strings
  import opened PathTemplate

  /** A Hadoop configuration, as the values its keys expand to. */
  type Conf = map<string, string>

  const AuthenticationMethod := "kerberos"
  const AuthenticationMethodProperty := "hadoop.security.authentication"

  /** `isKerberosEnabled`: the authentication property is present and is
      exactly "kerberos". */
  predicate IsKerberosEnabled(conf: Conf) {
    AuthenticationMethodProperty in conf && conf[AuthenticationMethodProperty] == AuthenticationMethod
  }

  /** `getHdfsUri`: the configured HDFS URI with the org substituted. A
      missing property fails as `Optional.get` does. */
  function HdfsUri(hdfsUriProperty: Option<string>, org: UuidText): (r: Result<string>)
    ensures r.Failure? <==> hdfsUriProperty.None?
    ensures r.Failure? ==> r.error == NoSuchElement
  {
    match hdfsUriProperty
    case None => Failure(NoSuchElement)
    case Some(uri) => Success(ResolveOrg(uri, org))
  }

  /** The effects `getFileSystem` asks of the outside world, in order. */
  datatype Step = KerberosLogin(kdc: string, realm: string) | ObtainFileSystem(uri: string)

  /** `getFileSystem` up to its foreign calls: with Kerberos enabled the KDC
      and realm are read (a missing one fails) and a login happens; then the
      tenant URI is computed and the file system obtained for it. The
      result is the URI used, with the steps taken up to success or
      failure. */
  function FileSystemSteps(conf: Conf, kdc: Option<string>, realm: Option<string>,
                           hdfsUriProperty: Option<string>, org: UuidText): (r: (Result<string>, seq<Step>))
    ensures r.0.Success? <==> hdfsUriProperty.Some? && (IsKerberosEnabled(conf) ==> kdc.Some? && realm.Some?)
    ensures r.0.Failure? ==> r.0.error == NoSuchElement
    ensures r.0.Success? ==> r.0 == HdfsUri(hdfsUriProperty, org)
  {
    var login := if IsKerberosEnabled(conf) then
      (if kdc.None? || realm.None? then Failure(NoSuchElement) else Success([KerberosLogin(kdc.value, realm.value)]))
      else Success([]);
    match login
    case Failure(e) => (Failure(e), [])
    case Success(steps) =>
      match HdfsUri(hdfsUriProperty, org)
      case Failure(e) => (Failure(e), steps)
      case Success(uri) => (Success(uri), steps + [ObtainFileSystem(uri)])
  }

  // ------------------------------------------------------------- lemmas

  /** Only the authentication property matters, and only the exact value
      "kerberos" enables Kerberos: a missing property or any other value
      leaves it disabled. */
  lemma KerberosDependsOnOneKey(conf: Conf, key: string, value: string)
    ensures AuthenticationMethodProperty !in conf ==> !IsKerberosEnabled(conf)
    ensures IsKerberosEnabled(conf[AuthenticationMethodProperty := value]) <==> value == "kerberos"
    ensures key != AuthenticationMethodProperty ==> (IsKerberosEnabled(conf[key := value]) <==> IsKerberosEnabled(conf))
    ensures !IsKerberosEnabled(conf - {AuthenticationMethodProperty})
  {
  }

  /** A login happens exactly when Kerberos is enabled and its settings are
      present; the file system is obtained exactly on success, once, as the
      last step, after any login, for the tenant URI. */
  lemma LoginPrecedesFileSystem(conf: Conf, kdc: Option<string>, realm: Option<string>,
                                hdfsUriProperty: Option<string>, org: UuidText)
    ensures var r := FileSystemSteps(conf, kdc, realm, hdfsUriProperty, org);
      (exists i :: 0 <= i < |r.1| && r.1[i].KerberosLogin?) <==> IsKerberosEnabled(conf) && kdc.Some? && realm.Some?
    ensures var r := FileSystemSteps(conf, kdc, realm, hdfsUriProperty, org);
      forall i :: 0 <= i < |r.1| && r.1[i].ObtainFileSystem? ==> r.0.Success? && i == |r.1| - 1 && r.1[i].uri == r.0.value
    ensures var r := FileSystemSteps(conf, kdc, realm, hdfsUriProperty, org);
      r.0.Success? ==> |r.1| > 0 && r.1[|r.1| - 1] == ObtainFileSystem(r.0.value)
    ensures var r := FileSystemSteps(conf, kdc, realm, hdfsUriProperty, org);
      forall i :: 0 <= i < |r.1| && r.1[i].KerberosLogin? ==> i == 0 && r.1[i] == KerberosLogin(kdc.value, realm.value)
  {
    var r := FileSystemSteps(conf, kdc, realm, hdfsUriProperty, org);
    if IsKerberosEnabled(conf) && kdc.Some? && realm.Some? {
      assert r.1[0].KerberosLogin?;
    }
  }

  /** A URI without "%{" is used as configured. */
  lemma HdfsUriWithoutTemplate(uri: string, org: UuidText)
    requires !HasMarker(uri)
    ensures HdfsUri(Some(uri), org) == Success(uri)
  {
    ResolveWithoutMarker(uri, org);
  }

  /** A configured template resolves to its instantiation, and resolving the
      tenant URI once more changes nothing. */
  lemma HdfsUriOfTemplate(ps: seq<Piece>, org: UuidText)
    requires WellFormed(ps)
    ensures HdfsUri(Some(Render(ps)), org) == Success(Render(Instantiate(ps, org)))
    ensures ResolveOrg(HdfsUri(Some(Render(ps)), org).value, org) == HdfsUri(Some(Render(ps)), org).value
  {
    ResolveRender(ps, org);
    ResolveIdempotent(ps, org);
  }

  /** The broker URI shape used for multi-tenant instances: the org is
      substituted into the org segment. */
  lemma OrgSegmentResolves(host: string, instance: string, org: UuidText)
    requires '%' !in host && '$' !in host && '%' !in instance
    ensures HdfsUri(Some(host + "/org/" + "%{organization}" + "/" + instance), org)
      == Success(host + "/org/" + org + "/" + instance)
  {
    var a, b := host + "/org/", "/" + instance;
    var p := "%{" + OrgPlaceholder + "}";
    assert p == "%{organization}";
    NoPercentNoMarker(a);
    NoPercentNoMarker(b);
    assert a[|a| - 1] == '/';
    ResolvePlainText(a, p + b, org);
    ResolvePlaceholder(OrgPlaceholder, b, org);
    ResolveWithoutMarker(b, org);
    ConcatAssoc(a, p, "/");
    ConcatAssoc(a + p, "/", instance);
    ConcatAssoc(a, p, b);
    ConcatAssoc(a, org, "/");
    ConcatAssoc(a + org, "/", instance);
    ConcatAssoc(a, org, b);
  }
}

=== FILE: strings.dfy ===
/** Small facts about strings used by the path and template models. */
module Strings {

  /** Index of the first `c` in `s`, or `|s|` when there is none
      (Java's `indexOf`, with `|s|` in place of -1). */
  function IndexOf(s: string, c: char): (i: nat)
    ensures i <= |s|
    ensures i < |s| ==> s[i] == c
    ensures forall j :: 0 <= j < i ==> s[j] != c
  {
    if s == [] then 0
    else if s[0] == c then 0
    else 1 + IndexOf(s[1..], c)
  }

  /** Two strings that agree on their first `n` characters agree on where
      `c` first occurs, as far as that is inside the first `n`. */
  lemma IndexOfAgree(x: string, y: string, c: char, n: nat)
    requires n <= |x| && n <= |y| && x[..n] == y[..n]
    ensures IndexOf(x, c) < n ==> IndexOf(y, c) == IndexOf(x, c)
    ensures IndexOf(x, c) >= n ==> IndexOf(y, c) >= n
  {
    var i, j := IndexOf(x, c), IndexOf(y, c);
    forall k | 0 <= k < n
      ensures x[k] == y[k]
    {
      assert x[..n][k] == x[k] && y[..n][k] == y[k];
    }
  }

  /** The first `c` is at `i` when `s[i]` is `c` and nothing before is. */
  lemma IndexOfExact(s: string, c: char, i: nat)
    requires i < |s| && s[i] == c
    requires forall j :: 0 <= j < i ==> s[j] != c
    ensures IndexOf(s, c) == i
  {
  }

  predicate StartsWith(s: string, prefix: string) {
    |prefix| <= |s| && s[..|prefix|] == prefix
  }

  predicate EndsWith(s: string, suffix: string) {
    |suffix| <= |s| && s[|s| - |suffix|..] == suffix
  }

  /** `StringUtils.removeEnd`: drops `suffix` once from the end of `s` when
      `s` ends with it, and otherwise returns `s`. */
  function RemoveEnd(s: string, suffix: string): (r: string)
    ensures EndsWith(s, suffix) ==> r + suffix == s
    ensures !EndsWith(s, suffix) ==> r == s
  {
    if suffix != [] && EndsWith(s, suffix) then s[..|s| - |suffix|] else s
  }

  lemma RemoveEndKeepsChars(s: string, suffix: string)
    ensures forall ch :: ch in RemoveEnd(s, suffix) ==> ch in s
  {
    var r := RemoveEnd(s, suffix);
    forall ch | ch in r
      ensures ch in s
    {
      var i :| 0 <= i < |r| && r[i] == ch;
      if EndsWith(s, suffix) {
        assert s == r + suffix;
        assert s[i] == ch;
      }
    }
  }

  lemma RemoveEndAppended(s: string, suffix: string)
    ensures RemoveEnd(s + suffix, suffix) == s
  {
    assert (s + suffix)[|s + suffix| - |suffix|..] == suffix;
    assert (s + suffix)[..|s|] == s;
  }

  lemma ConcatAssoc(a: string, b: string, c: string)
    ensures a + b + c == a + (b + c)
  {
  }
}

=== FILE: uuid.dfy ===
/** The canonical text of a `java.util.UUID`: 36 characters, lower-case
    hexadecimal digits in groups of 8-4-4-4-12 separated by '-'. Random
    UUIDs are not generated here: callers pass the value in. */
module Uuid {

  predicate IsHexDigit(c: char) {
    '0' <= c <= '9' || 'a' <= c <= 'f'
  }

  predicate IsDashPosition(i: int) {
    i == 8 || i == 13 || i == 18 || i == 23
  }

  predicate IsUuidText(s: string) {
    && |s| == 36
    && forall i :: 0 <= i < 36 ==> if IsDashPosition(i) then s[i] == '-' else IsHexDigit(s[i])
  }

  type UuidText = s: string | IsUuidText(s)
    witness "00000000-0000-0000-0000-000000000000"

  /** UUID text holds none of the characters that paths and templates
      treat specially. */
  lemma UuidChars(u: UuidText)
    ensures |u| == 36 && u[35] != '$' && u[35] != '%'
    ensures forall i :: 0 <= i < |u| ==> u[i] != '/' && u[i] != '%' && u[i] != '$' && u[i] != '{' && u[i] != '}' && u[i] != ':' && u[i] != ' ' && u[i] != '.'
  {
  }
}
